=== FILE: README.md ===
# py2mappr tag networks and openMappr metadata, in Dafny

This project models the deterministic core of a small Python pipeline. The pipeline turns a table of tagged records into a tag-similarity network and exports it in the openMappr format. Two parts of the pipeline are modelled.

- **Tag network** (`src/network_functions.py`, module `TagNetwork`):
  - The tag cleanup that `build_network` does before it hands the table to the external linking routine: fill missing tag strings, drop untagged rows, split on `|`, remove blacklisted tags, rejoin.
  - The graph that `buildNetworkX` builds from a link table.
  - The derived columns of `decorate_network`: `Cluster_count`, `Keyword_Theme`, `n_Neighbors`, and the optional removal of tags that occur only once, with the rebuilt tag string and `nTags`.
- **openMappr export** (`src/build_openmappr_files.py`, module `OpenMappr`):
  - `get_default_column_types_openmappr`: an ordered rule table in which the last rule that fires decides a column's (attrType, renderType, searchable) entry.
  - `write_openmappr_files`: it adds bookkeeping columns to the caller's node and link tables in place, then derives one attribute-settings row per node column, applying the caller's override and hide lists.

Supporting modules:
- `Wrappers` holds `Option` (a pandas NaN, an absent key) and `Result` (an operation that can raise).
- `SeqOps` models the list comprehensions, `collections.Counter` and `set` the code uses.
- `TextOps` models `str.split`, `str.join`, `str.strip` and the substring test.

Tables are abstracted as follows:
- In `TagNetwork`, a table is a sequence of rows. In the rows of `build_network` (`Record`, `TagRow`), the columns the code does not touch are carried as an opaque `rest`. The node rows of `decorate_network` (`Node`, `DecoratedNode`) carry only the columns it reads or derives. The exception to the sequence form is the table handed to `BuildNetwork`: it is an array, because `build_network` fills the caller's missing tag cells in place.
- In `OpenMappr`, a table is a `Frame` object whose column list is updated in place. A column is its name, its dtype (one of String, Float64, Int64, Bool, Other) and the text `str(x)` of each cell.

## Model

| member | source | states |
|---|---|---|
| SeqOps.Filter | src/network_functions.py:107 | the kept elements are exactly the inputs that pass, each with its original multiplicity |
| SeqOps.FilterIsSubseq | src/network_functions.py:107 | a comprehension filter never reorders: the result is a subsequence of the input |
| SeqOps.FilterKeepsAll | src/network_functions.py:107-108 | a filter that every element passes returns its input unchanged |
| SeqOps.CountsAreRowCounts | src/network_functions.py:139 | the number of occurrences of a value is the number of rows holding it, that is, the size of its group |
| SeqOps.Histogram | src/network_functions.py:162 | `Counter`: the keys are exactly the values present, each mapped to its number of occurrences |
| SeqOps.Dedup | src/network_functions.py:168 | `list(set(x))`: no value twice, and the same values as the input |
| SeqOps.Flatten | src/network_functions.py:162 | a value is in the flattened list exactly when some row's list holds it |
| SeqOps.FlattenAppend | src/network_functions.py:162 | flattening a concatenation of row lists concatenates the flattenings |
| SeqOps.FlattenCount | src/network_functions.py:162 | the number of times a value occurs in the flattened list is the sum of its occurrences in the rows before a row, in that row and in the rows after it |
| TextOps.Split | src/network_functions.py:106 | a split yields at least one piece, and no piece contains the separator |
| TextOps.JoinSplit | src/network_functions.py:106-108 | rejoining the pieces of a split restores the original string |
| TextOps.JoinSepCount | src/network_functions.py:108 | `sep.join` of n separator-free parts holds exactly n - 1 separators; with `JoinSplit` and `SplitJoin` this pins down the join |
| TextOps.SplitJoin | src/network_functions.py:108 | splitting a join of separator-free parts (at least one) gives back the parts |
| TextOps.SplitCount | src/network_functions.py:169 | the number of pieces is one more than the number of separators |
| TextOps.Contains | src/build_openmappr_files.py:34-38 | `sub in s` holds exactly when `sub` occurs in `s` at some position |
| TextOps.Strip | src/network_functions.py:166 | the result is the slice of the input between its leading and its trailing whitespace; it neither starts nor ends with whitespace, uses only characters of the input, is empty exactly when the input is all whitespace, and leaves an already stripped string unchanged |
| TagNetwork.Tagged | src/network_functions.py:102-104 | the rows kept are those with a non-empty tag string after filling missing ones, all of them with their multiplicity, in their original order |
| TagNetwork.CleanRow | src/network_functions.py:106-108 | the row's tag list is the split of its tag string with the blacklisted tags removed, in order and with every repetition kept (each tag occurs as often as in the split, or not at all when blacklisted); the rebuilt string splits back into that list; a row with no blacklisted tag keeps its string |
| TagNetwork.JoinEncodes | src/network_functions.py:108 | a list of `\|`-free tags is recovered by splitting its join, and the empty list joins to "" |
| TagNetwork.RejoinUnchanged | src/network_functions.py:106-108 | when no piece is blacklisted, split, filter and rejoin restore the tag string |
| TagNetwork.PrepareTags | src/network_functions.py:102-108 | one row per tagged row, in order, each the cleanup (`CleanRow`) of that row's own tag string: no blacklisted tag in any list, and each string encoding its list |
| TagNetwork.BuildNetwork | src/network_functions.py:102-108 | the caller's tag cells are filled with "" in place, and the result is the cleaned table that goes to the linking routine |
| TagNetwork.BuildGraph | src/network_functions.py:31-37 | the nodes are exactly the link endpoints, every link's edge is present (normalised when undirected), and every edge comes from a link |
| TagNetwork.OutDegreeIsDistinctTargets | src/network_functions.py:152-153 | a node's out-degree in the directed graph is the number of distinct targets of the links leaving it |
| TagNetwork.DuplicateLinkCollapses | src/network_functions.py:34-36 | adding a copy of an existing link changes no out-degree |
| TagNetwork.NeighborColumn | src/network_functions.py:152-153 | `n_Neighbors` is the count of distinct targets for an id that appears in some link, and missing for any other id |
| TagNetwork.ClusterCounts | src/network_functions.py:139 | each row's `Cluster_count` is the number of rows with the same cluster |
| TagNetwork.KeywordTheme | src/network_functions.py:140 | the theme is "" for no top tags; otherwise it splits on `,` back into the first min(3, n) top tags when no tag holds a comma |
| TagNetwork.TagLists | src/network_functions.py:160 | a missing tag-list cell reads as the empty list, and a present one as its own list |
| TagNetwork.ActiveTags | src/network_functions.py:162 | a tag is active exactly when it occurs at least twice over all rows' lists |
| TagNetwork.ActiveInTwoRows | src/network_functions.py:162 | a tag found in two different rows is active |
| TagNetwork.ActiveTwiceInRow | src/network_functions.py:162 | a tag found twice in one row is active |
| TagNetwork.SingletonInactive | src/network_functions.py:162 | a tag that occurs once in one row and in no other row is not active; "tag" here is the unstripped string, as `Counter` sees it at line 162 |
| TagNetwork.KeepActive | src/network_functions.py:164 | the kept tags are the active ones of the list, in order, each as often as in the list |
| TagNetwork.StripNonEmptyAsWritten | src/network_functions.py:166 | (as written) the result is the strip of each non-empty input tag, in order, one for one; so a tag is left exactly when it is the strip of a non-empty input tag, and a whitespace-only tag is left as "" |
| TagNetwork.StripNonEmpty | src/network_functions.py:166 | (corrected) the result is the stripped list with its empty tags removed, in order and with every repetition kept; every tag left is non-empty and stripped, and a tag is left exactly when it is the non-empty strip of an input tag |
| TagNetwork.StripOrderAgrees | src/network_functions.py:166 | stripping before or after the emptiness test gives the same list unless some tag is non-empty but all whitespace |
| TagNetwork.SingletonFreeListsAsWritten | src/network_functions.py:159-166 | (as written) in every row, a tag is left exactly when it is the strip of a non-empty tag of that row that occurs at least twice over the table; order and repeats follow from `CleanedRows` with `KeepActive` and `StripNonEmptyAsWritten` |
| TagNetwork.AsWrittenAgreesWithoutBlankTags | src/network_functions.py:159-166 | when no active tag is non-empty and all whitespace, the cleanup as written and the corrected one give the same lists |
| TagNetwork.WhitespaceTagBecomesEmpty | src/network_functions.py:159-169 | (as written) two rows, each tagged `" \|a"`: the source leaves `["", "a"]`, rebuilt as `"\|a"` in the model's first-occurrence order (`"a\|"` in another `set` order) with `nTags` 2 either way; both corrected cleanups leave `["a"]`, rebuilt as `"a"` with `nTags` 1 |
| TagNetwork.SingletonRemoval | src/network_functions.py:162-166 | (line 166 corrected alone) in one row, a tag is kept exactly when it is stripped, non-empty and the strip of a tag of that row that occurs at least twice over the table |
| TagNetwork.SingletonFreeLists | src/network_functions.py:159-166 | (line 166 corrected alone) the same, for every row of the node table; order and repeats follow from `CleanedRows` with `KeepActive` and `StripNonEmpty`; tags are still counted before they are stripped |
| TagNetwork.StrippedSingletonFreeLists | src/network_functions.py:159-166 | (corrected) tags are stripped and empty ones dropped before counting; each row is then a subsequence of its stripped list that keeps every tag occurring at least twice among the stripped tags of the table, with its count, and drops every other tag; every tag left is stripped, non-empty and occurs at least twice, as the docstring at line 130 promises |
| TagNetwork.StripFirstAgreesOnCleanTags | src/network_functions.py:159-166 | when every tag of the table is already stripped and non-empty, the strip-first cleanup, the line-166 correction and the cleanup as written all give the same rows |
| TagNetwork.PaddedTagsDropped | src/network_functions.py:159-166 | (as written) rows tagged `"x \| y"` and `"y \| x"` split into `"x "`, `" y"` and `"y "`, `" x"`; each is counted once, so the source (and the line-166 correction alone) leaves both rows empty, while the strip-first cleanup keeps `["x", "y"]` and `["y", "x"]` |
| TagNetwork.CleanedRows | src/network_functions.py:159-166 | row i of the two count-first cleanups is that row's own tag list, kept against the table's active tags and then cleaned, as written or corrected; row i of the strip-first cleanup is that row's stripped list, kept against the active tags of the stripped table |
| TagNetwork.CountTags | src/network_functions.py:169 | `nTags` is the number of `\|` in the string plus one |
| TagNetwork.TagStringPieces | src/network_functions.py:168-169 | the rebuilt string holds each tag of the list once and nothing else, and `nTags` is the number of distinct tags; for an empty list the string is "" and `nTags` is 1 |
| TagNetwork.DecorateNetwork | src/network_functions.py:139-169 | (corrected) the decorated table: one row per input row, each derived column as its specification function defines it, singleton removal (the strip-first cleanup) only when asked |
| OpenMappr.CountMatching | src/build_openmappr_files.py:32-38 | the summed per-cell test is at most the number of cells |
| OpenMappr.CountZeroWhenNonePass | src/build_openmappr_files.py:32-38 | the sum is zero exactly when no cell passes the test |
| OpenMappr.CountMatchingIsFilterLength | src/build_openmappr_files.py:32-38 | the summed per-cell test is the number of cells that pass |
| OpenMappr.ThresholdIsTwoPercent | src/build_openmappr_files.py:28-38 | a content rule fires exactly when more than one cell in fifty matches (strict) |
| OpenMappr.LastFiringRuleWins | src/build_openmappr_files.py:29-48 | applying the rules in order, each overwriting, leaves the entry of the last rule that fires |
| OpenMappr.NoRuleFires | src/build_openmappr_files.py:29-48 | when no rule fires, the entry is unchanged |
| OpenMappr.RuleTablePrecedence | src/build_openmappr_files.py:30-48 | the nine rules in order yield the precedence Bool > integer > float > picture > tag list > url > long text > plain string, and no entry otherwise |
| OpenMappr.ClassifyIsLastFiringRule | src/build_openmappr_files.py:29-48 | a column's entry under the rule table is that precedence applied to its dtype and content counts |
| OpenMappr.DtypeRulesWin | src/build_openmappr_files.py:41-48 | a Bool, integer or float column gets its dtype's entry whatever its cells hold |
| OpenMappr.EmptyTableUsesDtypeOnly | src/build_openmappr_files.py:28-38 | in a table with no rows no content rule fires, so only the dtype decides |
| OpenMappr.NoEntryExactly | src/build_openmappr_files.py:29-51 | a column gets no entry exactly when its dtype is none of the four and no content rule fires |
| OpenMappr.TypesOfEntries | src/build_openmappr_files.py:27-51 | classifying distinct columns in order yields a dictionary whose keys are exactly the typed columns' names, each with its entry |
| OpenMappr.DefaultColumnTypes | src/build_openmappr_files.py:26-51 | the loop's dictionary holds a column's name exactly when some rule typed it, with its last firing rule's entry, and no other key |
| OpenMappr.Lookup | src/build_openmappr_files.py:76-79 | `df[name]` finds a column of that name, and finds none exactly when no column has it |
| OpenMappr.Assign | src/build_openmappr_files.py:76-85 | `df[name] = v` replaces the column of that name where it stands or appends it; names stay distinct |
| OpenMappr.AssignKeepsOthers | src/build_openmappr_files.py:76-85 | assigning one column leaves every other name's column as it was |
| OpenMappr.Frame.SetColumn | src/build_openmappr_files.py:76-85 | the frame's columns become the assignment of the new column, and the frame stays well formed |
| OpenMappr.Get | src/build_openmappr_files.py:76-79 | a lookup succeeds exactly when the column exists, and raises KeyError with that name otherwise |
| OpenMappr.BookkeepingColumns | src/build_openmappr_files.py:76-80 | `label`, `OriginalLabel`, `OriginalX`, `OriginalY` and `OriginalSize` hold their copies and constant; every other column is untouched |
| OpenMappr.MetadataRow | src/build_openmappr_files.py:103-130 | attrType and renderType follow the override precedences; `visible` is FALSE exactly for the fixed hidden names and hide_add; hidden implies hidden in the profile; searchable is TRUE for text_str_add, FALSE for hidden or hideSearch_add names, the inferred value otherwise; title is the id |
| OpenMappr.AttributeTable | src/build_openmappr_files.py:91-100 | one row per column in column order, or KeyError for the first column without an entry |
| OpenMappr.AttributeTableOfTypes | src/build_openmappr_files.py:91-100 | the table built from the inferred dictionary has a row for every column and fails exactly when some column has no entry, with the KeyError of the first such column |
| OpenMappr.WriteOpenMapprFiles | src/build_openmappr_files.py:76-134 | each KeyError path and the tables it leaves behind; on success the bookkeeping columns are added, `isDirectional` is set on the link table, and the attribute table covers every node column including the added ones, or is the KeyError of the first column without an entry |

## Left out

- Writing CSV and Excel files and the progress output: only the table contents are modelled. The `datapath`, `outname` and `writeFile` parameters have no counterpart.
- The layouts (`tsne_layout`, `spring_layout`, `force_directed`) and the layout call inside `decorate_network`: floating-point numerics delegated to other libraries.
- `bn.buildTagNetwork`: external linking code that is not part of this model. `BuildNetwork` returns the cleaned table that would be handed to it, and `DecorateNetwork` takes that routine's node and link tables as inputs.
- Plotting (`plot_network` and the plotting in `build_decorate_plot_network`).
- `write_openmappr_files_manual` and the `__main__` block: they refer to names that are never defined.
- pandas dtype detection: each column's dtype is an input (String, Float64, Int64, Bool or Other), and so is `str(x)` of each cell. Column names are strings, so `str(id)` is the name itself.
- The threshold `0.02*len(ndf)` is compared as an exact rational. Floating-point rounding of the product is not modelled.
- The repeated picture assignment (lines 39-40) is one write in the model, since writing the same entry twice changes nothing.
- `showSearch_add` is accepted in `Overrides` and, as in the source, never read.
- DefaultColumnTypes: requires distinct column names. With a repeated name, pandas returns a frame rather than a column and the dtype test fails, which the model does not reproduce.
- The order of `list(set(x))` (network_functions.py line 168) is unspecified in Python. The model uses first-occurrence order as a stand-in. `DecorateNetwork` states the rebuilt tag string in that order. `TagStringPieces` states the properties that hold for any order: each distinct tag once and the tag count.
- `decorate_network` adds and drops columns of the caller's node table in place (lines 139-143), and goes on changing the table it works on in place up to line 176, before it selects the final columns at line 180. `DecorateNetwork` computes the decorated rows as a value, so that change to the caller's table, and the aliasing it implies, is not captured.
- WriteOpenMapprFiles: requires the two tables to be distinct objects and the link table to have distinct column names. The source needs neither; the model uses them to keep the frames' invariant.
- `decorate_network` steps that only move columns around are not modelled: dropping `Cluster`, copying `label`, renaming and selecting the final columns, and resetting the index. The decorated row keeps only the derived columns and the tag columns.
- `Cluster` values are integers; a missing cluster, which `groupby` would leave out of the count, is not modelled.
- `buildNetworkX` with custom source and target column names: links are (source, target) pairs of integer ids.
- Whitespace for `str.strip` is Python's set of whitespace code points, as a fixed list.

## Findings

| source | as written | input that shows it | evidently intended | confidence | as-written member | corrected member |
|---|---|---|---|---|---|---|
| src/network_functions.py:166 | the emptiness test runs before the strip, so a tag made only of spaces passes the test and is stripped to "" | two rows, each tagged `" \|a"` (tag lists both `[" ", "a"]`): the space tag occurs twice, so it stays active; row 0's list becomes `["", "a"]`, its tag string `"\|a"` or `"a\|"` (depending on `set` order) and `nTags` 2 either way, instead of `["a"]`, `"a"` and 1 | strip each tag, then drop the empty ones (the comment on line 165 asks to remove spaces and empty elements) | medium; not executed | TagNetwork.WhitespaceTagBecomesEmpty | TagNetwork.StrippedSingletonFreeLists |
| src/network_functions.py:162-166 | `Counter` counts the tags before line 166 strips them, so two tags that differ only in surrounding spaces are counted apart; the docstring at line 130 promises that only tags occurring at least twice are kept | rows tagged `"x \| y"` and `"y \| x"`: their tags `"x "`, `" y"`, `"y "`, `" x"` each occur once, so both rows lose every tag, although `x` and `y` each occur in both rows | strip the tags and drop the empty ones first, then count and keep the tags that occur at least twice | medium; not executed | TagNetwork.PaddedTagsDropped | TagNetwork.StrippedSingletonFreeLists |

`DecorateNetwork` uses the strip-first cleanup `StrippedSingletonFreeLists`, which corrects both rows: it strips and drops empty tags before counting, so no tag left is "" and every tag left occurs at least twice among the stripped tags. `SingletonFreeLists` corrects line 166 alone and still counts before stripping; `PaddedTagsDropped` shows that this is not enough, and `StripFirstAgreesOnCleanTags` that all three agree on tables whose tags carry no surrounding spaces. The cleanup as written is `TagNetwork.SingletonFreeListsAsWritten`, built on `TagNetwork.StripNonEmptyAsWritten`. `TagNetwork.AsWrittenAgreesWithoutBlankTags` shows that it and `SingletonFreeLists` differ only when an active tag is non-empty but all whitespace.

=== FILE: openmappr.dfy ===
/**
 * The attribute-metadata derivation of src/build_openmappr_files.py: the
 * default display type of every node-table column (an ordered rule table in
 * which the last rule that fires wins), the bookkeeping columns that
 * `write_openmappr_files` adds to the caller's node and link tables, and the
 * rows of the attribute-settings table it writes.
 *
 * A table is a `Frame` holding its columns in order; a column carries its
 * name, its dtype (abstracted to five kinds) and the text `str(x)` of each cell.
 */
module OpenMappr {
  import opened Wrappers
  import opened SeqOps
  import opened TextOps

  /** The pandas dtypes the rules distinguish; `String` is any dtype `is_string_dtype` accepts. */
  datatype DType = String | Float64 | Int64 | Bool | Other

  /** A column: its name, its dtype and `str(x)` of each cell. */
  datatype Column = Column(name: string, dtype: DType, cells: seq<string>)

  /** A `typeDict` entry: (attrType, renderType, searchable). */
  datatype TypeEntry = TypeEntry(attrType: string, renderType: string, searchable: string)

  const WideTagCloud := TypeEntry("string", "wide-tag-cloud", "TRUE")
  const LongText := TypeEntry("string", "text", "TRUE")
  const Url := TypeEntry("url", "default", "FALSE")
  const TagCloud := TypeEntry("liststring", "tag-cloud", "TRUE")
  const Picture := TypeEntry("picture", "default", "FALSE")
  const FloatHistogram := TypeEntry("float", "histogram", "FALSE")
  const IntegerHistogram := TypeEntry("integer", "histogram", "FALSE")
  const BoolTagCloud := TypeEntry("string", "tag-cloud", "FALSE")

  /** The errors the exporter can raise. */
  datatype Error = KeyError(key: string)

  // ---------------------------------------------------------------------------
  // get_default_column_types_openmappr
  // ---------------------------------------------------------------------------

  /** `sum(ndf[col].apply(test))`: the number of cells that pass `test`, at most the number of cells. */
  function CountMatching(cells: seq<string>, test: string -> bool): (n: nat)
    ensures n <= |cells|
  {
    if cells == [] then 0
    else (if test(cells[0]) then 1 else 0) + CountMatching(cells[1..], test)
  }

  /** The count is the length of the list of cells that pass. */
  lemma {:induction false} CountMatchingIsFilterLength(cells: seq<string>, test: string -> bool)
    ensures CountMatching(cells, test) == |Filter(cells, test)|
  {
    if cells != [] {
      CountMatchingIsFilterLength(cells[1..], test);
    }
  }

  /** The count is zero exactly when no cell passes. */
  lemma {:induction false} CountZeroWhenNonePass(cells: seq<string>, test: string -> bool)
    ensures CountMatching(cells, test) == 0 <==> forall i :: 0 <= i < |cells| ==> !test(cells[i])
  {
    if cells != [] {
      CountZeroWhenNonePass(cells[1..], test);
      assert forall i :: 1 <= i < |cells| ==> cells[i] == cells[1..][i - 1];
    }
  }

  /** `count > 0.02 * len(ndf)`: the threshold of a content rule. */
  predicate AboveThreshold(count: nat, rows: nat)
  {
    count as real > 0.02 * rows as real
  }

  /** The threshold is strict: more than one cell in fifty. */
  lemma ThresholdIsTwoPercent(count: nat, rows: nat)
    ensures AboveThreshold(count, rows) <==> 50 * count > rows
  {
  }

  predicate IsLongText(s: string) { |s| > 100 }
  predicate HasHttp(s: string) { Contains(s, "http") }
  predicate HasPipe(s: string) { Contains(s, "|") }
  predicate HasPng(s: string) { Contains(s, "png") }

  /** A content rule fires when more cells than the threshold pass its test. */
  predicate ContentRule(c: Column, rows: nat, test: string -> bool)
  {
    AboveThreshold(CountMatching(c.cells, test), rows)
  }

  /** One `if` of the rule table: whether it fires, and the entry it writes. */
  datatype Rule = Rule(fires: bool, entry: TypeEntry)

  /**
   * The rules of lines 30-48, in source order, given the column's dtype and
   * whether each content rule (long text, url, tag list, picture) fires.
   */
  function RuleTable(dtype: DType, long: bool, http: bool, pipe: bool, png: bool): (rules: seq<Rule>)
    ensures |rules| == 9
  {
    [ Rule(dtype == String, WideTagCloud),
      Rule(long, LongText),
      Rule(http, Url),
      Rule(pipe, TagCloud),
      Rule(png, Picture),
      Rule(dtype == Float64, FloatHistogram),
      Rule(dtype == Int64, IntegerHistogram),   // dtype == 'int64'
      Rule(dtype == Int64, IntegerHistogram),   // dtype == np.int64
      Rule(dtype == Bool, BoolTagCloud) ]
  }

  /** The rules as they apply to column `c` of a table with `rows` rows. */
  function Rules(c: Column, rows: nat): (rules: seq<Rule>)
    ensures |rules| == 9
  {
    RuleTable(c.dtype, ContentRule(c, rows, IsLongText), ContentRule(c, rows, HasHttp),
              ContentRule(c, rows, HasPipe), ContentRule(c, rows, HasPng))
  }

  /**
   * The entry after the rules have been applied in order, each firing rule
   * overwriting what the earlier ones wrote: the state after the last rule is
   * that rule's entry if it fires, else the state before it.
   */
  function Overwrite(current: Option<TypeEntry>, rules: seq<Rule>): Option<TypeEntry>
    decreases |rules|
  {
    if rules == [] then current
    else
      var last := rules[|rules| - 1];
      if last.fires then Some(last.entry) else Overwrite(current, rules[..|rules| - 1])
  }

  /** The last rule that fires decides the entry. */
  lemma {:induction false} LastFiringRuleWins(current: Option<TypeEntry>, rules: seq<Rule>, k: nat)
    requires k < |rules| && rules[k].fires
    requires forall j :: k < j < |rules| ==> !rules[j].fires
    ensures Overwrite(current, rules) == Some(rules[k].entry)
  {
    if k < |rules| - 1 {
      LastFiringRuleWins(current, rules[..|rules| - 1], k);
    }
  }

  /** When no rule fires the entry is left as it was. */
  lemma {:induction false} NoRuleFires(current: Option<TypeEntry>, rules: seq<Rule>)
    requires forall j :: 0 <= j < |rules| ==> !rules[j].fires
    ensures Overwrite(current, rules) == current
  {
    if rules != [] {
      NoRuleFires(current, rules[..|rules| - 1]);
    }
  }

  /**
   * The `typeDict` entry of one column, read as a precedence: Bool beats
   * integer beats float beats every content rule; among those, picture beats
   * tag list beats url beats long text; plain string is the fallback; any
   * other column gets no entry.
   */
  function Classify(c: Column, rows: nat): Option<TypeEntry>
  {
    if c.dtype == Bool then Some(BoolTagCloud)
    else if c.dtype == Int64 then Some(IntegerHistogram)
    else if c.dtype == Float64 then Some(FloatHistogram)
    else if ContentRule(c, rows, HasPng) then Some(Picture)
    else if ContentRule(c, rows, HasPipe) then Some(TagCloud)
    else if ContentRule(c, rows, HasHttp) then Some(Url)
    else if ContentRule(c, rows, IsLongText) then Some(LongText)
    else if c.dtype == String then Some(WideTagCloud)
    else None
  }

  /** The precedence is what running the rules of lines 30-48 in order, last one winning, produces. */
  lemma ClassifyIsLastFiringRule(c: Column, rows: nat)
    ensures Classify(c, rows) == Overwrite(None, Rules(c, rows))
  {
    RuleTablePrecedence(c.dtype, ContentRule(c, rows, IsLongText), ContentRule(c, rows, HasHttp),
                        ContentRule(c, rows, HasPipe), ContentRule(c, rows, HasPng));
  }

  /** Running the rule table in order yields the precedence of `Classify`. */
  lemma RuleTablePrecedence(dtype: DType, long: bool, http: bool, pipe: bool, png: bool)
    ensures Overwrite(None, RuleTable(dtype, long, http, pipe, png)) ==
      if dtype == Bool then Some(BoolTagCloud)
      else if dtype == Int64 then Some(IntegerHistogram)
      else if dtype == Float64 then Some(FloatHistogram)
      else if png then Some(Picture)
      else if pipe then Some(TagCloud)
      else if http then Some(Url)
      else if long then Some(LongText)
      else if dtype == String then Some(WideTagCloud)
      else None
  {
    var rs := RuleTable(dtype, long, http, pipe, png);
    if dtype == Bool {
      LastFiringRuleWins(None, rs, 8);
    } else if dtype == Int64 {
      LastFiringRuleWins(None, rs, 7);
    } else if dtype == Float64 {
      LastFiringRuleWins(None, rs, 5);
    } else if png {
      LastFiringRuleWins(None, rs, 4);
    } else if pipe {
      LastFiringRuleWins(None, rs, 3);
    } else if http {
      LastFiringRuleWins(None, rs, 2);
    } else if long {
      LastFiringRuleWins(None, rs, 1);
    } else if dtype == String {
      LastFiringRuleWins(None, rs, 0);
    } else {
      NoRuleFires(None, rs);
    }
  }

  /** The dtype rules come last, so a Bool, integer or float column gets its dtype's entry whatever its cells hold. */
  lemma DtypeRulesWin(c: Column, rows: nat)
    ensures c.dtype == Bool ==> Overwrite(None, Rules(c, rows)) == Some(BoolTagCloud)
    ensures c.dtype == Int64 ==> Overwrite(None, Rules(c, rows)) == Some(IntegerHistogram)
    ensures c.dtype == Float64 ==> Overwrite(None, Rules(c, rows)) == Some(FloatHistogram)
  {
    ClassifyIsLastFiringRule(c, rows);
  }

  /** A table with no rows triggers no content rule: only the dtype decides. */
  lemma EmptyTableUsesDtypeOnly(c: Column)
    requires c.cells == []
    ensures Overwrite(None, Rules(c, 0)) ==
      match c.dtype
      case Bool => Some(BoolTagCloud)
      case Int64 => Some(IntegerHistogram)
      case Float64 => Some(FloatHistogram)
      case String => Some(WideTagCloud)
      case Other => None
  {
    ClassifyIsLastFiringRule(c, 0);
  }

  /** The one failure mode: a column gets no entry exactly when it is of another dtype and no content rule fires. */
  lemma NoEntryExactly(c: Column, rows: nat)
    ensures Overwrite(None, Rules(c, rows)).None? <==>
      && c.dtype == Other
      && !ContentRule(c, rows, IsLongText) && !ContentRule(c, rows, HasHttp)
      && !ContentRule(c, rows, HasPipe) && !ContentRule(c, rows, HasPng)
  {
    ClassifyIsLastFiringRule(c, rows);
  }

  /** No two columns share a name. */
  predicate DistinctNames(cols: seq<Column>)
  {
    forall i, j :: 0 <= i < j < |cols| ==> cols[i].name != cols[j].name
  }

  /** `m` with `k` set to the entry `e`, or `m` itself when there is none. */
  function Put(m: map<string, TypeEntry>, k: string, e: Option<TypeEntry>): map<string, TypeEntry>
  {
    if e.Some? then m[k := e.value] else m
  }

  /** Writing a key twice leaves the second value. */
  lemma PutOverwrite(m: map<string, TypeEntry>, k: string, e: Option<TypeEntry>, x: TypeEntry)
    ensures Put(m, k, e)[k := x] == Put(m, k, Some(x))
  {
  }

  /** The dictionary after the columns of `cols` have been classified in order. */
  function TypesOf(cols: seq<Column>, rows: nat): map<string, TypeEntry>
  {
    if cols == [] then map[]
    else
      var last := cols[|cols| - 1];
      Put(TypesOf(cols[..|cols| - 1], rows), last.name, Classify(last, rows))
  }

  /**
   * With distinct column names, the dictionary holds exactly the names of the
   * columns some rule typed, each with its column's entry.
   */
  lemma {:induction false} TypesOfEntries(cols: seq<Column>, rows: nat)
    requires DistinctNames(cols)
    ensures forall k :: k in TypesOf(cols, rows) ==> exists i :: 0 <= i < |cols| && cols[i].name == k
    ensures forall i :: 0 <= i < |cols| ==>
      if Classify(cols[i], rows).Some?
      then cols[i].name in TypesOf(cols, rows) && TypesOf(cols, rows)[cols[i].name] == Classify(cols[i], rows).value
      else cols[i].name !in TypesOf(cols, rows)
  {
    if cols != [] {
      var n := |cols| - 1;
      var prefix, last := cols[..n], cols[n];
      TypesOfEntries(prefix, rows);
      var before := TypesOf(prefix, rows);
      assert TypesOf(cols, rows) == Put(before, last.name, Classify(last, rows));
      forall i | 0 <= i < n
        ensures prefix[i] == cols[i] && cols[i].name != last.name
      {
      }
    }
  }

  /**
   * `get_default_column_types_openmappr`: for each column in order, run the
   * rules of lines 30-48, each firing rule overwriting the column's entry.
   * Every column gets the entry of its last firing rule, or none.
   */
  method DefaultColumnTypes(cols: seq<Column>, rows: nat) returns (typeDict: map<string, TypeEntry>)
    requires DistinctNames(cols)
    ensures forall k :: k in typeDict ==> exists i :: 0 <= i < |cols| && cols[i].name == k
    ensures forall i :: 0 <= i < |cols| ==>
      if Classify(cols[i], rows).Some?
      then cols[i].name in typeDict && typeDict[cols[i].name] == Classify(cols[i], rows).value
      else cols[i].name !in typeDict
  {
    typeDict := map[];
    var countThresh: real := 0.02 * rows as real;
    for n := 0 to |cols|
      invariant typeDict == TypesOf(cols[..n], rows)
    {
      var col := cols[n];
      // the entry this column holds so far: typeDict == Put(before, col.name, entry)
      ghost var before, entry: Option<TypeEntry> := typeDict, None;
      if col.dtype == String {
        PutOverwrite(before, col.name, entry, WideTagCloud);
        typeDict, entry := typeDict[col.name := WideTagCloud], Some(WideTagCloud);
      }
      if CountMatching(col.cells, IsLongText) as real > countThresh {
        PutOverwrite(before, col.name, entry, LongText);
        typeDict, entry := typeDict[col.name := LongText], Some(LongText);
      }
      if CountMatching(col.cells, HasHttp) as real > countThresh {
        PutOverwrite(before, col.name, entry, Url);
        typeDict, entry := typeDict[col.name := Url], Some(Url);
      }
      if CountMatching(col.cells, HasPipe) as real > countThresh {
        PutOverwrite(before, col.name, entry, TagCloud);
        typeDict, entry := typeDict[col.name := TagCloud], Some(TagCloud);
      }
      if CountMatching(col.cells, HasPng) as real > countThresh {
        PutOverwrite(before, col.name, entry, Picture);
        typeDict, entry := typeDict[col.name := Picture], Some(Picture);
      }
      if col.dtype == Float64 {
        PutOverwrite(before, col.name, entry, FloatHistogram);
        typeDict, entry := typeDict[col.name := FloatHistogram], Some(FloatHistogram);
      }
      if col.dtype == Int64 {
        PutOverwrite(before, col.name, entry, IntegerHistogram);
        typeDict, entry := typeDict[col.name := IntegerHistogram], Some(IntegerHistogram);
      }
      if col.dtype == Int64 {
        PutOverwrite(before, col.name, entry, IntegerHistogram);
        typeDict, entry := typeDict[col.name := IntegerHistogram], Some(IntegerHistogram);
      }
      if col.dtype == Bool {
        PutOverwrite(before, col.name, entry, BoolTagCloud);
        typeDict, entry := typeDict[col.name := BoolTagCloud], Some(BoolTagCloud);
      }
      assert entry == Classify(col, rows);
      assert cols[..n + 1][..n] == cols[..n];
    }
    assert cols[..|cols|] == cols;
    TypesOfEntries(cols, rows);
  }

  // ---------------------------------------------------------------------------
  // Tables updated in place
  // ---------------------------------------------------------------------------

  /** The position of the first column called `name`, or -1 when there is none. */
  function Find(cols: seq<Column>, name: string): (k: int)
    ensures -1 <= k < |cols|
    ensures 0 <= k ==> cols[k].name == name && forall j :: 0 <= j < k ==> cols[j].name != name
    ensures k == -1 <==> forall j :: 0 <= j < |cols| ==> cols[j].name != name
  {
    if cols == [] then -1
    else if cols[0].name == name then 0
    else
      var k := Find(cols[1..], name);
      assert forall j :: 1 <= j < |cols| ==> cols[j] == cols[1..][j - 1];
      if k < 0 then -1 else k + 1
  }

  /** `df[name]`: the first column called `name`, if any. */
  function Lookup(cols: seq<Column>, name: string): (r: Option<Column>)
    ensures r.Some? ==> r.value in cols && r.value.name == name
    ensures r.None? <==> forall i :: 0 <= i < |cols| ==> cols[i].name != name
  {
    var k := Find(cols, name);
    if k < 0 then None else Some(cols[k])
  }

  /**
   * `df[c.name] = values`: an existing column of that name is replaced where it
   * stands; otherwise the column is appended at the end.
   */
  function Assign(cols: seq<Column>, c: Column): (r: seq<Column>)
    ensures Lookup(r, c.name) == Some(c)
    ensures Lookup(cols, c.name).None? ==> r == cols + [c]
    ensures Lookup(cols, c.name).Some? ==> |r| == |cols|
    ensures |cols| <= |r| && forall i :: 0 <= i < |cols| ==> r[i].name == cols[i].name
    ensures forall i :: 0 <= i < |r| ==> r[i] == c || (i < |cols| && r[i] == cols[i])
    ensures DistinctNames(cols) ==> DistinctNames(r)
  {
    var k := Find(cols, c.name);
    if k < 0 then
      var r := cols + [c];
      FindIsFirst(r, c.name, |cols|);
      r
    else
      var r := cols[k := c];
      FindIsFirst(r, c.name, k);
      r
  }

  /** `Find` returns the first position holding the name. */
  lemma FindIsFirst(cols: seq<Column>, name: string, k: nat)
    requires k < |cols| && cols[k].name == name
    requires forall j :: 0 <= j < k ==> cols[j].name != name
    ensures Find(cols, name) == k
  {
  }

  /** Two tables whose names agree position by position find a name at the same place. */
  lemma FindAgrees(a: seq<Column>, b: seq<Column>, name: string)
    requires |a| <= |b| && forall i :: 0 <= i < |a| ==> a[i].name == b[i].name
    requires forall i :: |a| <= i < |b| ==> b[i].name != name
    ensures Find(a, name) == Find(b, name)
  {
  }

  /** Assigning one column leaves every column of another name as it was. */
  lemma AssignKeepsOthers(cols: seq<Column>, c: Column, name: string)
    requires name != c.name
    ensures Lookup(Assign(cols, c), name) == Lookup(cols, name)
  {
    var r := Assign(cols, c);
    FindAgrees(cols, r, name);
    var k := Find(cols, name);
    if k >= 0 {
      assert r[k].name == name;
    }
  }

  /** A data frame whose columns `write_openmappr_files` adds to in place. */
  class Frame {
    var columns: seq<Column>
    var rows: nat

    /** Column names are distinct and every column has one cell per row. */
    ghost predicate Valid()
      reads this
    {
      DistinctNames(columns) && forall i :: 0 <= i < |columns| ==> |columns[i].cells| == rows
    }

    constructor (columns: seq<Column>, rows: nat)
      requires DistinctNames(columns)
      requires forall i :: 0 <= i < |columns| ==> |columns[i].cells| == rows
      ensures Valid() && this.columns == columns && this.rows == rows
    {
      this.columns := columns;
      this.rows := rows;
    }

    /** `df[c.name] = c.cells`. */
    method SetColumn(c: Column)
      requires Valid() && |c.cells| == rows
      modifies this
      ensures Valid() && rows == old(rows)
      ensures columns == Assign(old(columns), c)
    {
      columns := Assign(columns, c);
    }
  }

  // ---------------------------------------------------------------------------
  // write_openmappr_files
  // ---------------------------------------------------------------------------

  /** The caller's override lists. `showSearchAdd` is accepted and never read. */
  datatype Overrides = Overrides(
    hideAdd: seq<string>,
    hideProfileAdd: seq<string>,
    hideSearchAdd: seq<string>,
    liststringAdd: seq<string>,
    tagsAdd: seq<string>,
    wideTagsAdd: seq<string>,
    textStrAdd: seq<string>,
    emailStrAdd: seq<string>,
    showSearchAdd: seq<string>)

  /** The columns hidden from filters whatever the caller says. */
  const FixedHidden: seq<string> := ["label", "OriginalLabel", "OriginalSize", "OriginalY", "OriginalX", "id"]

  /** A row of the attribute-settings table, in the order of its written columns. */
  datatype AttrRow = AttrRow(
    id: string,
    visible: string,
    visibleInProfile: string,
    searchable: string,
    title: string,
    attrType: string,
    renderType: string,
    descr: string,
    maxLabel: string,
    minLabel: string,
    overlayAnchor: string)

  /** The 'FALSE'/'TRUE' text of a hide test. */
  function FlagText(hidden: bool): string
  {
    if hidden then "FALSE" else "TRUE"
  }

  /**
   * One row of the attribute-settings table for the column `id` whose inferred
   * entry is `entry`, with the caller's overrides applied.
   */
  function MetadataRow(id: string, entry: TypeEntry, o: Overrides): (row: AttrRow)
    ensures row.id == id && row.title == id
    ensures row.attrType ==
      if id in o.liststringAdd then "liststring"
      else if id in o.textStrAdd || id in o.emailStrAdd then "string"
      else entry.attrType
    ensures row.renderType ==
      if id in o.wideTagsAdd then "wide-tag-cloud"
      else if id in o.tagsAdd then "tag-cloud"
      else if id in o.textStrAdd then "text"
      else if id in o.emailStrAdd then "email"
      else entry.renderType
    ensures row.visible in {"TRUE", "FALSE"} && row.visibleInProfile in {"TRUE", "FALSE"}
    ensures row.visible == "FALSE" <==> id in FixedHidden || id in o.hideAdd
    ensures row.visibleInProfile == "FALSE" <==> id in FixedHidden || id in o.hideAdd || id in o.hideProfileAdd
    ensures row.visible == "FALSE" ==> row.visibleInProfile == "FALSE"
    ensures id in o.textStrAdd ==> row.searchable == "TRUE"
    ensures id !in o.textStrAdd && (id in FixedHidden || id in o.hideAdd || id in o.hideSearchAdd) ==>
      row.searchable == "FALSE"
    ensures id !in o.textStrAdd && !(id in FixedHidden || id in o.hideAdd || id in o.hideSearchAdd) ==>
      row.searchable == entry.searchable
    ensures row.descr == row.maxLabel == row.minLabel == row.overlayAnchor == ""
  {
    var attrType :=
      if id in o.liststringAdd then "liststring"
      else if id in o.textStrAdd + o.emailStrAdd then "string"
      else entry.attrType;
    var renderType :=
      if id in o.wideTagsAdd then "wide-tag-cloud"
      else if id in o.tagsAdd then "tag-cloud"
      else if id in o.textStrAdd then "text"
      else if id in o.emailStrAdd then "email"
      else entry.renderType;
    var hidden := FixedHidden + o.hideAdd;
    var hideProfile := hidden + o.hideProfileAdd;
    var hideSearch := hidden + o.hideSearchAdd;
    var hiddenSearchable := if id in hideSearch then "FALSE" else entry.searchable;
    var searchable := if id in o.textStrAdd then "TRUE" else hiddenSearchable;
    AttrRow(id, FlagText(id in hidden), FlagText(id in hideProfile), searchable, id,
            attrType, renderType, "", "", "", "")
  }

  /**
   * The attribute-settings table: one row per column in column order, or the
   * KeyError of the first column that `typeDict` has no entry for.
   */
  function AttributeTable(cols: seq<Column>, typeDict: map<string, TypeEntry>, o: Overrides)
    : (r: Result<seq<AttrRow>, Error>)
    ensures r.Success? <==> forall i :: 0 <= i < |cols| ==> cols[i].name in typeDict
    ensures r.Success? ==> |r.value| == |cols| && forall i :: 0 <= i < |cols| ==>
      cols[i].name in typeDict && r.value[i] == MetadataRow(cols[i].name, typeDict[cols[i].name], o)
    ensures r.Failure? ==> exists i :: 0 <= i < |cols| && r.error == KeyError(cols[i].name) &&
                                      cols[i].name !in typeDict && forall j :: 0 <= j < i ==> cols[j].name in typeDict
  {
    if cols == [] then Success([])
    else if cols[0].name !in typeDict then Failure(KeyError(cols[0].name))
    else
      match AttributeTable(cols[1..], typeDict, o)
      case Failure(e) =>
        assert forall i :: 1 <= i < |cols| ==> cols[i] == cols[1..][i - 1];
        Failure(e)
      case Success(rest) =>
        assert forall i :: 1 <= i < |cols| ==> cols[i] == cols[1..][i - 1];
        Success([MetadataRow(cols[0].name, typeDict[cols[0].name], o)] + rest)
  }

  /** `ndf[name]`, raising KeyError when there is no such column. */
  function Get(cols: seq<Column>, name: string): (r: Result<Column, Error>)
    ensures r.Success? <==> Lookup(cols, name).Some?
    ensures r.Success? ==> r.value == Lookup(cols, name).value
    ensures r.Failure? ==> r.error == KeyError(name)
  {
    match Lookup(cols, name)
    case None => Failure(KeyError(name))
    case Some(c) => Success(c)
  }

  /** `ndf['OriginalSize'] = 10`: an integer column of tens. */
  function SizeColumn(rows: nat): Column
  {
    Column("OriginalSize", Int64, seq(rows, _ => "10"))
  }

  /** `ldf['isDirectional'] = True`: a Boolean column of `True`. */
  function DirectionColumn(rows: nat): Column
  {
    Column("isDirectional", Bool, seq(rows, _ => "True"))
  }

  /** The node table after `label` and `OriginalLabel` have been copied from the label column `lab`. */
  function WithLabels(cols: seq<Column>, lab: Column): seq<Column>
  {
    Assign(Assign(cols, lab.(name := "label")), lab.(name := "OriginalLabel"))
  }

  /** ... and after `OriginalX` has been copied from the column `x`. */
  function WithX(cols: seq<Column>, lab: Column, x: Column): seq<Column>
  {
    Assign(WithLabels(cols, lab), x.(name := "OriginalX"))
  }

  /** The node table with every bookkeeping column added. */
  function WithBookkeeping(cols: seq<Column>, rows: nat, lab: Column, x: Column, y: Column): seq<Column>
  {
    Assign(Assign(WithX(cols, lab, x), y.(name := "OriginalY")), SizeColumn(rows))
  }

  /** The bookkeeping column names `write_openmappr_files` adds to the node table. */
  const Bookkeeping: seq<string> := ["label", "OriginalLabel", "OriginalX", "OriginalY", "OriginalSize"]

  /**
   * The bookkeeping columns hold copies of the label, x and y columns and the
   * constant size; every other column is untouched; names stay distinct.
   */
  lemma BookkeepingColumns(cols: seq<Column>, rows: nat, lab: Column, x: Column, y: Column)
    ensures var r := WithBookkeeping(cols, rows, lab, x, y);
      && Lookup(r, "label") == Some(lab.(name := "label"))
      && Lookup(r, "OriginalLabel") == Some(lab.(name := "OriginalLabel"))
      && Lookup(r, "OriginalX") == Some(x.(name := "OriginalX"))
      && Lookup(r, "OriginalY") == Some(y.(name := "OriginalY"))
      && Lookup(r, "OriginalSize") == Some(SizeColumn(rows))
      && (forall n :: n !in Bookkeeping ==> Lookup(r, n) == Lookup(cols, n))
      && (DistinctNames(cols) ==> DistinctNames(r))
  {
    var c1 := Assign(cols, lab.(name := "label"));
    var c2 := Assign(c1, lab.(name := "OriginalLabel"));
    var c3 := Assign(c2, x.(name := "OriginalX"));
    var c4 := Assign(c3, y.(name := "OriginalY"));
    var c5 := Assign(c4, SizeColumn(rows));
    AssignKeepsOthers(c4, SizeColumn(rows), "OriginalY");
    AssignKeepsOthers(c4, SizeColumn(rows), "OriginalX");
    AssignKeepsOthers(c3, y.(name := "OriginalY"), "OriginalX");
    AssignKeepsOthers(c4, SizeColumn(rows), "OriginalLabel");
    AssignKeepsOthers(c3, y.(name := "OriginalY"), "OriginalLabel");
    AssignKeepsOthers(c2, x.(name := "OriginalX"), "OriginalLabel");
    AssignKeepsOthers(c4, SizeColumn(rows), "label");
    AssignKeepsOthers(c3, y.(name := "OriginalY"), "label");
    AssignKeepsOthers(c2, x.(name := "OriginalX"), "label");
    AssignKeepsOthers(c1, lab.(name := "OriginalLabel"), "label");
    forall n | n !in Bookkeeping
      ensures Lookup(c5, n) == Lookup(cols, n)
    {
      AssignKeepsOthers(cols, lab.(name := "label"), n);
      AssignKeepsOthers(c1, lab.(name := "OriginalLabel"), n);
      AssignKeepsOthers(c2, x.(name := "OriginalX"), n);
      AssignKeepsOthers(c3, y.(name := "OriginalY"), n);
      AssignKeepsOthers(c4, SizeColumn(rows), n);
    }
  }

  /**
   * `r` is the attribute-settings table of the node table `cols`: one row per
   * column, built from the column's inferred entry, or the KeyError of the
   * first column that no rule typed.
   */
  ghost predicate IsAttributeTable(r: Result<seq<AttrRow>, Error>, cols: seq<Column>, rows: nat, o: Overrides)
  {
    && (r.Success? <==> forall i :: 0 <= i < |cols| ==> Classify(cols[i], rows).Some?)
    && (r.Success? ==> |r.value| == |cols| && forall i :: 0 <= i < |cols| ==>
          Classify(cols[i], rows).Some? &&
          r.value[i] == MetadataRow(cols[i].name, Classify(cols[i], rows).value, o))
    && (r.Failure? ==> exists i :: 0 <= i < |cols| && r.error == KeyError(cols[i].name) &&
                                   Classify(cols[i], rows).None? &&
                                   forall j :: 0 <= j < i ==> Classify(cols[j], rows).Some?)
  }

  /**
   * `write_openmappr_files` without the file writing: add the bookkeeping
   * columns to the node table and `isDirectional` to the link table, in place,
   * then build the attribute-settings table. A missing label, `x_tsne` or
   * `y_tsne` column raises KeyError after the columns added before it; a
   * column with no inferred type raises KeyError after both tables are updated.
   */
  method WriteOpenMapprFiles(ndf: Frame, ldf: Frame, labelCol: string, o: Overrides)
    returns (r: Result<seq<AttrRow>, Error>)
    requires ndf.Valid() && ldf.Valid() && ndf != ldf
    modifies ndf, ldf
    ensures ndf.Valid() && ldf.Valid() && ndf.rows == old(ndf.rows) && ldf.rows == old(ldf.rows)
    ensures Lookup(old(ndf.columns), labelCol).None? ==>
      r == Failure(KeyError(labelCol)) && ndf.columns == old(ndf.columns) && ldf.columns == old(ldf.columns)
    ensures Lookup(old(ndf.columns), labelCol).Some? && Lookup(old(ndf.columns), "x_tsne").None? ==>
      && r == Failure(KeyError("x_tsne"))
      && ndf.columns == WithLabels(old(ndf.columns), Lookup(old(ndf.columns), labelCol).value)
      && ldf.columns == old(ldf.columns)
    ensures Lookup(old(ndf.columns), labelCol).Some? && Lookup(old(ndf.columns), "x_tsne").Some? &&
            Lookup(old(ndf.columns), "y_tsne").None? ==>
      && r == Failure(KeyError("y_tsne"))
      && ndf.columns == WithX(old(ndf.columns), Lookup(old(ndf.columns), labelCol).value,
                              Lookup(old(ndf.columns), "x_tsne").value)
      && ldf.columns == old(ldf.columns)
    ensures Lookup(old(ndf.columns), labelCol).Some? && Lookup(old(ndf.columns), "x_tsne").Some? &&
            Lookup(old(ndf.columns), "y_tsne").Some? ==>
      && ndf.columns == WithBookkeeping(old(ndf.columns), ndf.rows, Lookup(old(ndf.columns), labelCol).value,
                                        Lookup(old(ndf.columns), "x_tsne").value,
                                        Lookup(old(ndf.columns), "y_tsne").value)
      && ldf.columns == Assign(old(ldf.columns), DirectionColumn(ldf.rows))
      && IsAttributeTable(r, ndf.columns, ndf.rows, o)
  {
    var labelColumn := Get(ndf.columns, labelCol);
    if labelColumn.Failure? {
      return Failure(labelColumn.error);
    }
    ghost var cols := ndf.columns;
    ndf.SetColumn(labelColumn.value.(name := "label"));
    AssignKeepsOthers(cols, labelColumn.value.(name := "label"), "x_tsne");
    AssignKeepsOthers(cols, labelColumn.value.(name := "label"), "y_tsne");
    ghost var c1 := ndf.columns;
    ndf.SetColumn(labelColumn.value.(name := "OriginalLabel"));
    AssignKeepsOthers(c1, labelColumn.value.(name := "OriginalLabel"), "x_tsne");
    AssignKeepsOthers(c1, labelColumn.value.(name := "OriginalLabel"), "y_tsne");
    var x := Get(ndf.columns, "x_tsne");
    if x.Failure? {
      return Failure(x.error);
    }
    ghost var c2 := ndf.columns;
    ndf.SetColumn(x.value.(name := "OriginalX"));
    AssignKeepsOthers(c2, x.value.(name := "OriginalX"), "y_tsne");
    var y := Get(ndf.columns, "y_tsne");
    if y.Failure? {
      return Failure(y.error);
    }
    ndf.SetColumn(y.value.(name := "OriginalY"));
    ndf.SetColumn(SizeColumn(ndf.rows));
    ldf.SetColumn(DirectionColumn(ldf.rows));
    var typeDict := DefaultColumnTypes(ndf.columns, ndf.rows);
    r := AttributeTable(ndf.columns, typeDict, o);
    AttributeTableOfTypes(r, ndf.columns, ndf.rows, typeDict, o);
  }

  /** The table built from the inferred dictionary is the attribute-settings table of the columns. */
  lemma AttributeTableOfTypes(r: Result<seq<AttrRow>, Error>, cols: seq<Column>, rows: nat,
                              typeDict: map<string, TypeEntry>, o: Overrides)
    requires r == AttributeTable(cols, typeDict, o)
    requires forall i :: 0 <= i < |cols| ==>
      if Classify(cols[i], rows).Some?
      then cols[i].name in typeDict && typeDict[cols[i].name] == Classify(cols[i], rows).value
      else cols[i].name !in typeDict
    ensures IsAttributeTable(r, cols, rows, o)
  {
  }
}

=== FILE: seqops.dfy ===
/**
 * Sequence operations that the Python code writes as list comprehensions,
 * `collections.Counter` and `set`.
 */
module SeqOps {

  /** `[x for x in s if keep(x)]`: the elements that pass, in their original order. */
  function Filter<T(==,!new)>(s: seq<T>, keep: T -> bool): (r: seq<T>)
    ensures forall x :: multiset(r)[x] == if keep(x) then multiset(s)[x] else 0
    ensures forall x :: x in r <==> x in s && keep(x)
  {
    if s == [] then []
    else
      assert s == [s[0]] + s[1..];
      if keep(s[0]) then [s[0]] + Filter(s[1..], keep)
      else Filter(s[1..], keep)
  }

  /** `[f(x) for x in s]`. */
  function MapSeq<T, U>(s: seq<T>, f: T -> U): (r: seq<U>)
    ensures |r| == |s|
    ensures forall i :: 0 <= i < |s| ==> r[i] == f(s[i])
  {
    seq(|s|, i requires 0 <= i < |s| => f(s[i]))
  }

  /** The elements of a map are exactly the images of the input's elements. */
  lemma MapSeqMembers<T, U>(s: seq<T>, f: T -> U)
    ensures forall y :: y in MapSeq(s, f) <==> exists x :: x in s && f(x) == y
  {
    var r := MapSeq(s, f);
    forall y | y in r ensures exists x :: x in s && f(x) == y {
      var k :| 0 <= k < |r| && r[k] == y;
      assert s[k] in s;
    }
    forall y, x | x in s && f(x) == y ensures y in r {
      var k :| 0 <= k < |s| && s[k] == x;
      assert r[k] == y;
    }
  }

  /** Mapping a sequence with a first element maps that element first. */
  lemma MapSeqCons<T, U>(x: T, s: seq<T>, f: T -> U)
    ensures MapSeq([x] + s, f) == [f(x)] + MapSeq(s, f)
  {
    assert forall i :: 1 <= i <= |s| ==> ([x] + s)[i] == s[i - 1];
  }

  /** Filtering before or after a map is the same when the map never changes the test's verdict. */
  lemma {:induction false} FilterMapCommute<T(!new)>(s: seq<T>, f: T -> T, keep: T -> bool)
    requires forall x :: x in s ==> (keep(x) <==> keep(f(x)))
    ensures MapSeq(Filter(s, keep), f) == Filter(MapSeq(s, f), keep)
  {
    if s != [] {
      var rest := s[1..];
      FilterMapCommute(rest, f, keep);
      var m := MapSeq(s, f);
      assert m[0] == f(s[0]);
      assert m[1..] == MapSeq(rest, f);
      if keep(s[0]) {
        assert Filter(s, keep) == [s[0]] + Filter(rest, keep);
        MapSeqCons(s[0], Filter(rest, keep), f);
      } else {
        assert Filter(s, keep) == Filter(rest, keep);
      }
    }
  }

  /** `a` is obtained from `b` by deleting elements: same elements, same relative order. */
  predicate IsSubseq<T(==)>(a: seq<T>, b: seq<T>)
    decreases |b|
  {
    if a == [] then true
    else if b == [] then false
    else if a[0] == b[0] then IsSubseq(a[1..], b[1..])
    else IsSubseq(a, b[1..])
  }

  /** A filter never reorders: its result is a subsequence of its input. */
  lemma {:induction false} FilterIsSubseq<T(!new)>(s: seq<T>, keep: T -> bool)
    ensures IsSubseq(Filter(s, keep), s)
  {
    if s != [] {
      FilterIsSubseq(s[1..], keep);
      var rest := Filter(s[1..], keep);
      if keep(s[0]) {
        assert Filter(s, keep) == [s[0]] + rest;
        assert ([s[0]] + rest)[1..] == rest;
      } else if rest != [] && rest[0] == s[0] {
        assert false;
      }
    }
  }

  /** A filter that every element passes returns its input unchanged. */
  lemma {:induction false} FilterKeepsAll<T(!new)>(s: seq<T>, keep: T -> bool)
    requires forall x :: x in s ==> keep(x)
    ensures Filter(s, keep) == s
  {
    if s != [] {
      FilterKeepsAll(s[1..], keep);
      assert s == [s[0]] + s[1..];
    }
  }

  /** The rows of `s` that hold `x`: the group `x` in a group-by on `s`. */
  function IndicesOf<T(==)>(s: seq<T>, x: T): set<int>
  {
    set j | 0 <= j < |s| && s[j] == x
  }

  /** The number of occurrences of `x` is the number of rows that hold it. */
  lemma {:induction false} CountIsRowCount<T>(s: seq<T>, x: T)
    ensures multiset(s)[x] == |IndicesOf(s, x)|
  {
    if s != [] {
      var n := |s| - 1;
      CountIsRowCount(s[..n], x);
      assert s == s[..n] + [s[n]];
      assert IndicesOf(s, x) == IndicesOf(s[..n], x) + (if s[n] == x then {n} else {});
    }
  }

  /** `CountIsRowCount` for every value at once. */
  lemma CountsAreRowCounts<T>(s: seq<T>)
    ensures forall x :: multiset(s)[x] == |IndicesOf(s, x)|
  {
    forall x {
      CountIsRowCount(s, x);
    }
  }

  /** `Counter(s)`: every value of `s` mapped to its number of occurrences. */
  function Histogram<T(==,!new)>(s: seq<T>): (h: map<T, nat>)
    ensures forall x :: x in h <==> x in s
    ensures forall x :: x in h ==> h[x] == multiset(s)[x]
  {
    if s == [] then map[]
    else
      var n := |s| - 1;
      var h := Histogram(s[..n]);
      assert s == s[..n] + [s[n]];
      h[s[n] := if s[n] in h then h[s[n]] + 1 else 1]
  }

  /** No value occurs twice. */
  predicate NoDup<T(==)>(s: seq<T>)
  {
    forall i, j :: 0 <= i < j < |s| ==> s[i] != s[j]
  }

  /**
   * `list(set(s))`, with the first occurrence of each value kept. Python leaves
   * the order of a set unspecified; callers rely only on the two ensures.
   */
  function Dedup<T(==,!new)>(s: seq<T>): (r: seq<T>)
    ensures NoDup(r)
    ensures forall x :: x in r <==> x in s
  {
    if s == [] then []
    else
      var n := |s| - 1;
      var r := Dedup(s[..n]);
      assert s == s[..n] + [s[n]];
      if s[n] in r then r else r + [s[n]]
  }

  /** `[k for xs in ss for k in xs]`. */
  function Flatten<T(!new)>(ss: seq<seq<T>>): (r: seq<T>)
    ensures forall x :: x in r <==> exists i :: 0 <= i < |ss| && x in ss[i]
  {
    if ss == [] then []
    else
      var rest := Flatten(ss[1..]);
      assert forall x :: x in rest <==> exists i :: 1 <= i < |ss| && x in ss[i] by {
        forall x | x in rest ensures exists i :: 1 <= i < |ss| && x in ss[i] {
          var k :| 0 <= k < |ss[1..]| && x in ss[1..][k];
          assert x in ss[k + 1];
        }
        forall x, i | 1 <= i < |ss| && x in ss[i] ensures x in rest {
          assert ss[1..][i - 1] == ss[i];
        }
      }
      ss[0] + rest
  }

  /** Flattening a concatenation of row lists concatenates their flattenings. */
  lemma {:induction false} FlattenAppend<T(!new)>(a: seq<seq<T>>, b: seq<seq<T>>)
    ensures Flatten(a + b) == Flatten(a) + Flatten(b)
  {
    if a != [] {
      FlattenAppend(a[1..], b);
      assert (a + b)[1..] == a[1..] + b;
      assert Flatten(a + b) == a[0] + Flatten(a[1..] + b);
    } else {
      assert a + b == b;
    }
  }

  /**
   * The number of occurrences of `x` in the flattened list is the sum of its
   * occurrences in the rows before `i`, in row `i` and in the rows after it.
   */
  lemma FlattenCount<T(!new)>(ss: seq<seq<T>>, i: nat, x: T)
    requires i < |ss|
    ensures multiset(Flatten(ss))[x] ==
      multiset(Flatten(ss[..i]))[x] + multiset(ss[i])[x] + multiset(Flatten(ss[i + 1..]))[x]
  {
    var before, row, after := ss[..i], [ss[i]], ss[i + 1..];
    assert ss == before + (row + after);
    FlattenAppend(before, row + after);
    FlattenAppend(row, after);
    FlattenSingle(ss[i]);
    assert Flatten(ss) == Flatten(before) + (ss[i] + Flatten(after));
  }

  /** One row flattens to itself. */
  lemma FlattenSingle<T(!new)>(xs: seq<T>)
    ensures Flatten([xs]) == xs
  {
    assert [xs][1..] == [];
  }
}

=== FILE: tagnetwork.dfy ===
/**
 * The tag-network part of src/network_functions.py: the tag cleanup that
 * `build_network` does before linking, the graph that `buildNetworkX` builds
 * from a link table, and the derived columns and singleton-tag removal of
 * `decorate_network`. A table is a sequence of rows; the columns the code
 * does not touch are carried as an opaque `rest`.
 */
module TagNetwork {
  import opened Wrappers
  import opened SeqOps
  import opened TextOps

  /** Separator of a tag string. */
  const TagSep: char := '|'
  /** Separator of the short cluster label `Keyword_Theme`. */
  const ThemeSep: char := ','
  /** How many top tags make up `Keyword_Theme`. */
  const ThemeSize: nat := 3

  // ---------------------------------------------------------------------------
  // build_network: tag cleanup before linking
  // ---------------------------------------------------------------------------

  /** A row handed to `build_network`: its tag cell (None when missing) and the other columns. */
  datatype Record<R> = Record(rest: R, tags: Option<string>)

  /** A row after the cleanup: the rebuilt tag string and the `<attr>_list` column. */
  datatype TagRow<R> = TagRow(rest: R, tags: string, tagList: seq<string>)

  /** `fillna("")` on one tag cell. */
  function FillTag(t: Option<string>): string
  {
    match t
    case None => ""
    case Some(s) => s
  }

  /** The row has a non-empty tag string once missing cells are filled. */
  predicate HasTags<R>(r: Record<R>)
  {
    FillTag(r.tags) != ""
  }

  /**
   * `df[df[attr] != '']`: the rows left after dropping those with an empty or
   * missing tag string, with their order and multiplicity kept.
   */
  function Tagged<R(==,!new)>(df: seq<Record<R>>): (kept: seq<Record<R>>)
    ensures IsSubseq(kept, df)
    ensures forall r :: r in kept ==> HasTags(r)
    ensures forall r :: HasTags(r) ==> multiset(kept)[r] == multiset(df)[r]
  {
    FilterIsSubseq(df, HasTags);
    Filter(df, HasTags)
  }

  /** The test `s not in blacklist`. */
  function Allowed(blacklist: seq<string>): string -> bool
  {
    (s: string) => s !in blacklist
  }

  /** `[s for s in pieces if s not in blacklist]`. */
  function Unblacklisted(pieces: seq<string>, blacklist: seq<string>): seq<string>
  {
    Filter(pieces, Allowed(blacklist))
  }

  /**
   * Lines 106-108 on one row: split the tag string on `|`, drop blacklisted
   * tags, rejoin with `|`. The list is the split with blacklisted tags removed,
   * in the original order and with every repetition kept; the string encodes
   * exactly that list; and a row with no blacklisted tag keeps its tag string
   * unchanged.
   */
  function CleanRow<R(!new)>(rec: Record<R>, blacklist: seq<string>): (row: TagRow<R>)
    ensures row.rest == rec.rest
    ensures IsSubseq(row.tagList, Split(FillTag(rec.tags), TagSep))
    ensures forall t :: multiset(row.tagList)[t] == (if t in blacklist then 0 else multiset(Split(FillTag(rec.tags), TagSep))[t])
    ensures forall t :: t in row.tagList <==> t in Split(FillTag(rec.tags), TagSep) && t !in blacklist
    ensures Split(row.tags, TagSep) == if row.tagList == [] then [""] else row.tagList
    ensures (forall t :: t in Split(FillTag(rec.tags), TagSep) ==> t !in blacklist) ==> row.tags == FillTag(rec.tags)
  {
    var s := FillTag(rec.tags);
    var list := Unblacklisted(Split(s, TagSep), blacklist);
    FilterIsSubseq(Split(s, TagSep), Allowed(blacklist));
    JoinEncodes(list);
    RejoinUnchanged(s, blacklist);
    TagRow(rec.rest, Join(list, TagSep), list)
  }

  /** A list of tags without `|` is recovered from its `|`-join; the empty list joins to "". */
  lemma JoinEncodes(list: seq<string>)
    requires forall t :: t in list ==> TagSep !in t
    ensures Split(Join(list, TagSep), TagSep) == if list == [] then [""] else list
  {
    if list != [] {
      assert forall i :: 0 <= i < |list| ==> list[i] in list;
      SplitJoin(list, TagSep);
    }
  }

  /** When no tag is blacklisted, the rebuilt tag string is the original one. */
  lemma RejoinUnchanged(s: string, blacklist: seq<string>)
    ensures (forall t :: t in Split(s, TagSep) ==> t !in blacklist) ==>
      Join(Unblacklisted(Split(s, TagSep), blacklist), TagSep) == s
  {
    if forall t :: t in Split(s, TagSep) ==> t !in blacklist {
      FilterKeepsAll(Split(s, TagSep), Allowed(blacklist));
      JoinSplit(s, TagSep);
    }
  }

  /**
   * The table `build_network` hands to the external linking routine: one
   * cleaned row per row with a non-empty tag string, in the original order,
   * each the cleanup of that row's own tag string.
   */
  function PrepareTags<R(==,!new)>(df: seq<Record<R>>, blacklist: seq<string>): (rows: seq<TagRow<R>>)
    ensures |rows| == |Tagged(df)|
    ensures forall i :: 0 <= i < |rows| ==> rows[i] == CleanRow(Tagged(df)[i], blacklist)
    ensures forall i :: 0 <= i < |rows| ==> rows[i].rest == Tagged(df)[i].rest
    ensures forall i, t :: 0 <= i < |rows| && t in rows[i].tagList ==> t !in blacklist
    ensures forall i :: 0 <= i < |rows| ==>
      Split(rows[i].tags, TagSep) == if rows[i].tagList == [] then [""] else rows[i].tagList
  {
    var kept := Tagged(df);
    seq(|kept|, i requires 0 <= i < |kept| => CleanRow(kept[i], blacklist))
  }

  /**
   * `build_network` up to the call of the external linking routine: the
   * caller's tag column has its missing cells filled with "" in place, and the
   * result is the cleaned table.
   */
  method BuildNetwork<R(==,!new)>(df: array<Record<R>>, blacklist: seq<string>) returns (rows: seq<TagRow<R>>)
    modifies df
    ensures forall i :: 0 <= i < df.Length ==>
      df[i] == Record(old(df[i]).rest, Some(FillTag(old(df[i]).tags)))
    ensures rows == PrepareTags(df[..], blacklist)
  {
    forall i | 0 <= i < df.Length {
      df[i] := Record(df[i].rest, Some(FillTag(df[i].tags)));
    }
    rows := PrepareTags(df[..], blacklist);
  }

  // ---------------------------------------------------------------------------
  // buildNetworkX: the graph of a link table
  // ---------------------------------------------------------------------------

  /** A row of the link table. */
  datatype Link = Link(source: int, target: int)

  /** A simple graph: its node ids and its edge set (each edge at most once). */
  datatype Graph = Graph(nodes: set<int>, edges: set<(int, int)>)

  /** The edge a link adds: ordered when directed, normalised to (low, high) when not. */
  function EdgeOf(l: Link, directed: bool): (int, int)
  {
    if directed || l.source <= l.target then (l.source, l.target) else (l.target, l.source)
  }

  /**
   * `buildNetworkX`: the nodes are the link endpoints and the edge set holds one
   * edge per distinct link, so duplicate links collapse.
   */
  function BuildGraph(links: seq<Link>, directed: bool): (g: Graph)
    ensures forall v :: v in g.nodes <==> exists l :: l in links && (l.source == v || l.target == v)
    ensures forall l :: l in links ==> EdgeOf(l, directed) in g.edges
    ensures forall e :: e in g.edges ==> exists l :: l in links && EdgeOf(l, directed) == e
  {
    var sources := set l | l in links :: l.source;
    var targets := set l | l in links :: l.target;
    Graph(sources + targets, set l | l in links :: EdgeOf(l, directed))
  }

  /** The successors of `v` in a directed graph. */
  function Successors(g: Graph, v: int): set<int>
  {
    set e | e in g.edges && e.0 == v :: e.1
  }

  /** `out_degree` of `v` in a simple directed graph. */
  function OutDegree(g: Graph, v: int): nat
  {
    |Successors(g, v)|
  }

  /** The out-degree of `v` is the number of distinct targets of the links leaving `v`. */
  lemma OutDegreeIsDistinctTargets(links: seq<Link>, v: int)
    ensures OutDegree(BuildGraph(links, true), v) == |set l | l in links && l.source == v :: l.target|
  {
    var g := BuildGraph(links, true);
    var targets := set l | l in links && l.source == v :: l.target;
    forall t | t in Successors(g, v) ensures t in targets {
      var l :| l in links && EdgeOf(l, true) == (v, t);
    }
    forall t | t in targets ensures t in Successors(g, v) {
      var l :| l in links && l.source == v && l.target == t;
      assert EdgeOf(l, true) in g.edges;
    }
    assert Successors(g, v) == targets;
  }

  /** Repeating a link changes no out-degree. */
  lemma DuplicateLinkCollapses(links: seq<Link>, l: Link, v: int)
    requires l in links
    ensures OutDegree(BuildGraph(links + [l], true), v) == OutDegree(BuildGraph(links, true), v)
  {
    var g, g' := BuildGraph(links, true), BuildGraph(links + [l], true);
    forall e | e in g'.edges ensures e in g.edges {
      var k :| k in links + [l] && EdgeOf(k, true) == e;
      assert k in links;
    }
    assert g'.edges == g.edges;
  }

  /**
   * `df['id'].map(dict(nw.out_degree()))` for one id: the out-degree of a node
   * of the graph, and a missing value (NaN) for an id that is in no link.
   */
  function NeighborCount(g: Graph, id: int): Option<nat>
  {
    if id in g.nodes then Some(OutDegree(g, id)) else None
  }

  // ---------------------------------------------------------------------------
  // decorate_network: derived columns and singleton-tag removal
  // ---------------------------------------------------------------------------

  /** `df.groupby(['Cluster'])['id'].transform('count')`: the size of each row's cluster. */
  function ClusterCounts(clusters: seq<int>): (counts: seq<nat>)
    ensures |counts| == |clusters|
    ensures forall i :: 0 <= i < |clusters| ==> counts[i] == |IndicesOf(clusters, clusters[i])|
  {
    var hist := Histogram(clusters);
    CountsAreRowCounts(clusters);
    seq(|clusters|, i requires 0 <= i < |clusters| => hist[clusters[i]])
  }

  function Min(a: nat, b: nat): nat
  {
    if a <= b then a else b
  }

  /**
   * `','.join(x[0:3])`: the short cluster label. It is empty for no top tags,
   * and otherwise splits back into the first three (or fewer) top tags when no
   * tag holds a comma.
   */
  function KeywordTheme(topTags: seq<string>): (theme: string)
    ensures topTags == [] ==> theme == ""
    ensures topTags != [] && (forall t :: t in topTags ==> ThemeSep !in t) ==>
      Split(theme, ThemeSep) == topTags[..Min(ThemeSize, |topTags|)]
  {
    var top := topTags[..Min(ThemeSize, |topTags|)];
    assert topTags != [] && (forall t :: t in topTags ==> ThemeSep !in t) ==>
      Split(Join(top, ThemeSep), ThemeSep) == top by {
      if topTags != [] && (forall t :: t in topTags ==> ThemeSep !in t) {
        assert forall i :: 0 <= i < |top| ==> top[i] in topTags;
        SplitJoin(top, ThemeSep);
      }
    }
    Join(top, ThemeSep)
  }

  /** `fillna('')` on a tag-list cell: iterating the filled empty string yields no tag. */
  function FillList(l: Option<seq<string>>): seq<string>
  {
    match l
    case None => []
    case Some(xs) => xs
  }

  /**
   * The keys of the master histogram with a count above one: the tags that
   * occur at least twice over all rows' lists.
   */
  function ActiveTags(lists: seq<seq<string>>): (active: set<string>)
    ensures forall t :: t in active <==> multiset(Flatten(lists))[t] >= 2
  {
    var hist := Histogram(Flatten(lists));
    set t | t in hist && hist[t] > 1
  }

  /**
   * `[k for k in x if k in tagHist]`: the active tags of the list, in order,
   * each as often as in the list.
   */
  function KeepActive(tags: seq<string>, active: set<string>): (kept: seq<string>)
    ensures IsSubseq(kept, tags)
    ensures forall t :: multiset(kept)[t] == if t in active then multiset(tags)[t] else 0
  {
    FilterIsSubseq(tags, (k: string) => k in active);
    Filter(tags, (k: string) => k in active)
  }

  /** `len(s) > 0`. */
  predicate NotEmpty(s: string)
  {
    |s| > 0
  }

  /**
   * `[s.strip() for s in x if len(s) > 0]`, as the source writes it: the
   * emptiness test comes before the strip, so a tag is left exactly when it is
   * the strip of a non-empty input tag, which may be "".
   */
  function StripNonEmptyAsWritten(tags: seq<string>): (r: seq<string>)
    ensures |r| == |Filter(tags, NotEmpty)|
    ensures forall k :: 0 <= k < |r| ==> r[k] == Strip(Filter(tags, NotEmpty)[k])
    ensures forall t :: t in r <==> exists u :: u in tags && u != "" && Strip(u) == t
  {
    MapSeqMembers(Filter(tags, NotEmpty), Strip);
    MapSeq(Filter(tags, NotEmpty), Strip)
  }

  /**
   * Strip every tag, then drop the empty ones: what the comment at line 165
   * asks for. The result is the stripped list with its empty tags removed, in
   * order and with every repetition kept; every tag left is stripped and
   * non-empty, and it is the strip of some input tag.
   */
  function StripNonEmpty(tags: seq<string>): (r: seq<string>)
    ensures IsSubseq(r, MapSeq(tags, Strip))
    ensures forall t :: multiset(r)[t] == if t == "" then 0 else multiset(MapSeq(tags, Strip))[t]
    ensures forall t :: t in r ==> t != "" && Strip(t) == t
    ensures forall t :: t in r <==> t != "" && exists u :: u in tags && Strip(u) == t
  {
    MapSeqMembers(tags, Strip);
    FilterIsSubseq(MapSeq(tags, Strip), NotEmpty);
    Filter(MapSeq(tags, Strip), NotEmpty)
  }

  /**
   * The source's order of strip and emptiness test only matters for a tag that
   * is non-empty but all whitespace: without one, both give the same list.
   */
  lemma StripOrderAgrees(tags: seq<string>)
    requires forall u :: u in tags && u != "" ==> Strip(u) != ""
    ensures StripNonEmptyAsWritten(tags) == StripNonEmpty(tags)
  {
    assert Strip("") == "";
    FilterMapCommute(tags, Strip, NotEmpty);
  }

  /** `"|".join(list(set(x)))`: each distinct tag once, in some order. */
  function TagString(tags: seq<string>): string
  {
    Join(Dedup(tags), TagSep)
  }

  /** `len(x.split("|"))`. */
  function CountTags(s: string): (n: nat)
    ensures n == multiset(s)[TagSep] + 1
  {
    SplitCount(s, TagSep);
    |Split(s, TagSep)|
  }

  /**
   * The rebuilt tag string holds each tag of the list exactly once and nothing
   * else, and `nTags` counts the distinct tags, except that it is 1 for an
   * empty list, whose string is "".
   */
  lemma TagStringPieces(tags: seq<string>)
    requires forall t :: t in tags ==> TagSep !in t
    ensures tags == [] ==> TagString(tags) == "" && CountTags(TagString(tags)) == 1
    ensures tags != [] ==>
      var pieces := Split(TagString(tags), TagSep);
      && NoDup(pieces)
      && (forall t :: t in pieces <==> t in tags)
      && CountTags(TagString(tags)) == |Dedup(tags)|
  {
    var d := Dedup(tags);
    if tags != [] {
      assert tags[0] in d;
      assert forall i :: 0 <= i < |d| ==> d[i] in tags;
      SplitJoin(d, TagSep);
    }
  }

  /** The tag-list cells of a node table after `fillna('')`: a missing cell reads as no tags. */
  function TagLists(df: seq<Node>): (lists: seq<seq<string>>)
    ensures |lists| == |df|
    ensures forall i :: 0 <= i < |df| && df[i].tagList.None? ==> lists[i] == []
    ensures forall i :: 0 <= i < |df| && df[i].tagList.Some? ==> lists[i] == df[i].tagList.value
  {
    seq(|df|, i requires 0 <= i < |df| => FillList(df[i].tagList))
  }

  /**
   * `t` may survive singleton removal in row `i`: it is stripped, non-empty,
   * and the strip of a tag of that row that occurs at least twice over the table.
   */
  ghost predicate IsKeptTag(lists: seq<seq<string>>, i: nat, t: string)
    requires i < |lists|
  {
    && t != "" && Strip(t) == t
    && exists u :: u in lists[i] && Strip(u) == t && multiset(Flatten(lists))[u] >= 2
  }

  /** A tag in two different rows is active. */
  lemma ActiveInTwoRows(lists: seq<seq<string>>, i: nat, j: nat, t: string)
    requires i < j < |lists| && t in lists[i] && t in lists[j]
    ensures t in ActiveTags(lists)
  {
    FlattenCount(lists, i, t);
    assert lists[i + 1..][j - i - 1] == lists[j];
    assert t in Flatten(lists[i + 1..]);
  }

  /** A tag twice in one row is active. */
  lemma ActiveTwiceInRow(lists: seq<seq<string>>, i: nat, t: string)
    requires i < |lists| && multiset(lists[i])[t] >= 2
    ensures t in ActiveTags(lists)
  {
    FlattenCount(lists, i, t);
  }

  /** A tag that occurs exactly once in the whole table is not active. */
  lemma SingletonInactive(lists: seq<seq<string>>, i: nat, t: string)
    requires i < |lists| && multiset(lists[i])[t] == 1
    requires forall j :: 0 <= j < |lists| && j != i ==> t !in lists[j]
    ensures t !in ActiveTags(lists)
  {
    FlattenCount(lists, i, t);
    var before, after := lists[..i], lists[i + 1..];
    forall k | 0 <= k < |before| ensures t !in before[k] {
      assert before[k] == lists[k];
    }
    forall k | 0 <= k < |after| ensures t !in after[k] {
      assert after[k] == lists[i + 1 + k];
    }
    assert t !in Flatten(before) && t !in Flatten(after);
  }

  /**
   * Singleton removal on one row: keep the tags that occur at least twice
   * over the table, strip them and drop empty ones. A tag is kept exactly when
   * it is stripped, non-empty, and the strip of a tag of that row that occurs
   * at least twice.
   */
  lemma SingletonRemoval(lists: seq<seq<string>>, i: nat)
    requires i < |lists|
    ensures forall t :: t in StripNonEmpty(KeepActive(lists[i], ActiveTags(lists))) <==> IsKeptTag(lists, i, t)
  {
    var active := ActiveTags(lists);
    var kept := KeepActive(lists[i], active);
    forall t | t in StripNonEmpty(kept)
      ensures exists u :: u in lists[i] && Strip(u) == t && multiset(Flatten(lists))[u] >= 2
    {
      var u :| u in kept && Strip(u) == t;
      assert u in lists[i] && u in active;
    }
    forall t | IsKeptTag(lists, i, t)
      ensures t in StripNonEmpty(kept)
    {
      var u :| u in lists[i] && Strip(u) == t && multiset(Flatten(lists))[u] >= 2;
      assert u in active;
      assert u in kept;
    }
  }

  /** A row of the node table the linking routine returns, as far as decoration reads it. */
  datatype Node = Node(id: int, cluster: int, topTags: seq<string>, tags: string, tagList: Option<seq<string>>)

  /** A decorated row. `nTags` is absent when singleton removal is switched off. */
  datatype DecoratedNode = DecoratedNode(
    id: int,
    clusterCount: nat,
    keywordTheme: string,
    nNeighbors: Option<nat>,
    tags: string,
    tagList: Option<seq<string>>,
    nTags: Option<nat>)

  /** The `Cluster` column. */
  function Clusters(df: seq<Node>): (clusters: seq<int>)
    ensures |clusters| == |df|
    ensures forall i :: 0 <= i < |df| ==> clusters[i] == df[i].cluster
  {
    seq(|df|, i requires 0 <= i < |df| => df[i].cluster)
  }

  /**
   * The `n_Neighbors` column: for an id in some link, the number of distinct
   * targets of the links leaving it; for any other id, a missing value.
   */
  function NeighborColumn(df: seq<Node>, links: seq<Link>): (n: seq<Option<nat>>)
    ensures |n| == |df|
    ensures forall i :: 0 <= i < |df| ==>
      n[i] == if exists l :: l in links && (l.source == df[i].id || l.target == df[i].id)
              then Some(|set l | l in links && l.source == df[i].id :: l.target|)
              else None
  {
    var g := BuildGraph(links, true);
    forall i | 0 <= i < |df|
      ensures OutDegree(g, df[i].id) == |set l | l in links && l.source == df[i].id :: l.target|
    {
      OutDegreeIsDistinctTargets(links, df[i].id);
    }
    seq(|df|, i requires 0 <= i < |df| => NeighborCount(g, df[i].id))
  }

  /**
   * The tag lists after singleton removal with line 166 corrected alone: tags
   * are still counted before they are stripped. Row by row, a tag is left exactly
   * when it is stripped, non-empty, and the strip of a tag of that row that
   * occurs at least twice over the whole table.
   */
  function SingletonFreeLists(df: seq<Node>): (cleaned: seq<seq<string>>)
    ensures |cleaned| == |df|
    ensures forall i, t :: 0 <= i < |df| ==> (t in cleaned[i] <==> IsKeptTag(TagLists(df), i, t))
  {
    var lists := TagLists(df);
    var active := ActiveTags(lists);
    forall i | 0 <= i < |df|
      ensures forall t :: t in StripNonEmpty(KeepActive(lists[i], active)) <==> IsKeptTag(lists, i, t)
    {
      SingletonRemoval(lists, i);
    }
    seq(|df|, i requires 0 <= i < |df| => StripNonEmpty(KeepActive(lists[i], active)))
  }

  /**
   * `t` survives the source's singleton removal in row `i`: it is the strip of
   * a non-empty tag of that row that occurs at least twice over the table.
   */
  ghost predicate IsKeptTagAsWritten(lists: seq<seq<string>>, i: nat, t: string)
    requires i < |lists|
  {
    exists u :: u in lists[i] && u != "" && Strip(u) == t && multiset(Flatten(lists))[u] >= 2
  }

  /**
   * Lines 160-166 as written, row by row: a tag is left exactly when it is the
   * strip of a non-empty active tag of that row, so a whitespace-only active
   * tag is left as "".
   */
  function SingletonFreeListsAsWritten(df: seq<Node>): (cleaned: seq<seq<string>>)
    ensures |cleaned| == |df|
    ensures forall i, t :: 0 <= i < |df| ==> (t in cleaned[i] <==> IsKeptTagAsWritten(TagLists(df), i, t))
  {
    var lists := TagLists(df);
    var active := ActiveTags(lists);
    forall i | 0 <= i < |df|
      ensures forall t :: t in StripNonEmptyAsWritten(KeepActive(lists[i], active)) <==> IsKeptTagAsWritten(lists, i, t)
    {
      SingletonRemovalAsWritten(lists, i);
    }
    seq(|df|, i requires 0 <= i < |df| => StripNonEmptyAsWritten(KeepActive(lists[i], active)))
  }

  /** Singleton removal on one row as the source writes it: a tag is left exactly when it is the strip of a non-empty active tag of that row. */
  lemma SingletonRemovalAsWritten(lists: seq<seq<string>>, i: nat)
    requires i < |lists|
    ensures forall t :: t in StripNonEmptyAsWritten(KeepActive(lists[i], ActiveTags(lists))) <==> IsKeptTagAsWritten(lists, i, t)
  {
    var active := ActiveTags(lists);
    var kept := KeepActive(lists[i], active);
    forall t | t in StripNonEmptyAsWritten(kept) ensures IsKeptTagAsWritten(lists, i, t) {
      var u :| u in kept && u != "" && Strip(u) == t;
      assert u in lists[i] && u in active;
    }
    forall t | IsKeptTagAsWritten(lists, i, t) ensures t in StripNonEmptyAsWritten(kept) {
      var u :| u in lists[i] && u != "" && Strip(u) == t && multiset(Flatten(lists))[u] >= 2;
      assert u in kept;
    }
  }

  /** Without a non-empty, all-whitespace active tag, the source's cleanup and `SingletonFreeLists` agree on every row. */
  lemma AsWrittenAgreesWithoutBlankTags(df: seq<Node>)
    requires forall u :: u in ActiveTags(TagLists(df)) && u != "" ==> Strip(u) != ""
    ensures SingletonFreeListsAsWritten(df) == SingletonFreeLists(df)
  {
    var lists := TagLists(df);
    var active := ActiveTags(lists);
    forall i | 0 <= i < |df|
      ensures StripNonEmptyAsWritten(KeepActive(lists[i], active)) == StripNonEmpty(KeepActive(lists[i], active))
    {
      StripOrderAgrees(KeepActive(lists[i], active));
    }
  }

  /** Every row's tags stripped, with the empty ones dropped. */
  function StrippedLists(lists: seq<seq<string>>): seq<seq<string>>
  {
    seq(|lists|, i requires 0 <= i < |lists| => StripNonEmpty(lists[i]))
  }

  /**
   * Singleton removal with the strip moved before the count, which is what the
   * docstring at line 130 promises: every tag is stripped and the empty ones
   * dropped, then each row keeps, in order and with its repetitions, exactly
   * the tags that occur at least twice among the stripped tags of the table.
   */
  function StrippedSingletonFreeLists(df: seq<Node>): (cleaned: seq<seq<string>>)
    ensures |cleaned| == |df|
    ensures forall i :: 0 <= i < |df| ==> IsSubseq(cleaned[i], StripNonEmpty(TagLists(df)[i]))
    ensures forall i, t :: 0 <= i < |df| ==>
      multiset(cleaned[i])[t] ==
        if multiset(Flatten(StrippedLists(TagLists(df))))[t] >= 2 then multiset(StripNonEmpty(TagLists(df)[i]))[t] else 0
    ensures forall i, t :: 0 <= i < |df| && t in cleaned[i] ==>
      t != "" && Strip(t) == t && multiset(Flatten(StrippedLists(TagLists(df))))[t] >= 2
    ensures forall i, t ::
      (0 <= i < |df| && t in StripNonEmpty(TagLists(df)[i]) && multiset(Flatten(StrippedLists(TagLists(df))))[t] >= 2)
      ==> t in cleaned[i]
  {
    var stripped := StrippedLists(TagLists(df));
    seq(|df|, i requires 0 <= i < |df| => KeepActive(stripped[i], ActiveTags(stripped)))
  }

  /** Every tag of the list is stripped and non-empty. */
  predicate AllClean(tags: seq<string>)
  {
    forall t :: t in tags ==> t != "" && Strip(t) == t
  }

  /** A list whose tags are all stripped and non-empty is its own cleanup. */
  lemma StripNonEmptyOfClean(tags: seq<string>)
    requires AllClean(tags)
    ensures StripNonEmpty(tags) == tags
  {
    assert MapSeq(tags, Strip) == tags;
    FilterKeepsAll(tags, NotEmpty);
  }

  /**
   * When every tag of the table is already stripped and non-empty, counting
   * before or after the strip makes no difference: the three cleanups agree.
   */
  lemma StripFirstAgreesOnCleanTags(df: seq<Node>)
    requires forall i :: 0 <= i < |df| ==> AllClean(TagLists(df)[i])
    ensures StrippedSingletonFreeLists(df) == SingletonFreeLists(df)
    ensures SingletonFreeListsAsWritten(df) == SingletonFreeLists(df)
  {
    var lists := TagLists(df);
    var active := ActiveTags(lists);
    forall i | 0 <= i < |df| ensures StrippedLists(lists)[i] == lists[i] {
      StripNonEmptyOfClean(lists[i]);
    }
    assert StrippedLists(lists) == lists;
    forall i | 0 <= i < |df|
      ensures StrippedSingletonFreeLists(df)[i] == SingletonFreeLists(df)[i]
      ensures SingletonFreeListsAsWritten(df)[i] == SingletonFreeLists(df)[i]
    {
      var kept := KeepActive(lists[i], active);
      assert AllClean(kept);
      StripNonEmptyOfClean(kept);
      StripOrderAgrees(kept);
      CleanedRows(df, i);
    }
  }

  /** Two node rows, each tagged with a space and `"a"`. */
  const BlankTagTable: seq<Node> := [Node(0, 0, [], " |a", Some([" ", "a"])), Node(1, 0, [], " |a", Some([" ", "a"]))]

  /**
   * In `BlankTagTable` the space is active, so the source's
   * cleanup leaves `["", "a"]`, rebuilt as `"|a"` with `nTags` 2, where the
   * corrected cleanups both leave `["a"]`, rebuilt as `"a"` with `nTags` 1.
   */
  lemma WhitespaceTagBecomesEmpty()
    ensures SingletonFreeListsAsWritten(BlankTagTable)[0] == ["", "a"]
    ensures TagString(["", "a"]) == "|a" && CountTags("|a") == 2
    ensures SingletonFreeLists(BlankTagTable)[0] == ["a"]
    ensures StrippedSingletonFreeLists(BlankTagTable)[0] == ["a"]
    ensures TagString(["a"]) == "a" && CountTags("a") == 1
  {
    var df := BlankTagTable;
    var lists := TagLists(df);
    assert lists == [[" ", "a"], [" ", "a"]];
    ActiveInTwoRows(lists, 0, 1, " ");
    ActiveInTwoRows(lists, 0, 1, "a");
    FirstRowCleanup(df);
    BlankStrippedFirst();
    ExampleTagStrings();
  }

  /** Stripped first, the space of `BlankTagTable` is dropped before counting and `"a"`, in both rows, is kept. */
  lemma BlankStrippedFirst()
    ensures StrippedSingletonFreeLists(BlankTagTable)[0] == ["a"]
  {
    assert TagLists(BlankTagTable) == [[" ", "a"], [" ", "a"]];
    StrippedPair([" ", "a"], [" ", "a"]);
    SpaceAndLetter();
    var stripped := StrippedLists(TagLists(BlankTagTable));
    assert stripped == [["a"], ["a"]];
    ActiveInTwoRows(stripped, 0, 1, "a");
    RowOfActiveTags(BlankTagTable, 0);
  }

  /** A first row tagged `" "` and `"a"`, both active, is cleaned to `["", "a"]` as written and to `["a"]` when corrected. */
  lemma FirstRowCleanup(df: seq<Node>)
    requires |df| > 0 && TagLists(df)[0] == [" ", "a"]
    requires " " in ActiveTags(TagLists(df)) && "a" in ActiveTags(TagLists(df))
    ensures SingletonFreeListsAsWritten(df)[0] == ["", "a"]
    ensures SingletonFreeLists(df)[0] == ["a"]
  {
    var lists := TagLists(df);
    var active := ActiveTags(lists);
    FilterKeepsAll(lists[0], (k: string) => k in active);
    assert KeepActive(lists[0], active) == [" ", "a"];
    SpaceAndLetter();
    CleanedRows(df, 0);
  }

  /** Row `i` of either cleanup is that row's own list cleaned against the table's active tags. */
  lemma CleanedRows(df: seq<Node>, i: nat)
    requires i < |df|
    ensures var lists := TagLists(df);
      && SingletonFreeListsAsWritten(df)[i] == StripNonEmptyAsWritten(KeepActive(lists[i], ActiveTags(lists)))
      && SingletonFreeLists(df)[i] == StripNonEmpty(KeepActive(lists[i], ActiveTags(lists)))
      && StrippedSingletonFreeLists(df)[i] == KeepActive(StrippedLists(lists)[i], ActiveTags(StrippedLists(lists)))
  {
  }

  /** The cleanup of the list `[" ", "a"]`: `["", "a"]` as written, `["a"]` corrected. */
  lemma SpaceAndLetter()
    ensures StripNonEmptyAsWritten([" ", "a"]) == ["", "a"]
    ensures StripNonEmpty([" ", "a"]) == ["a"]
  {
    StripSpaceAndLetter();
    FilterKeepsAll([" ", "a"], NotEmpty);
    assert Filter(["a"], NotEmpty) == ["a"];
    assert ["", "a"][1..] == ["a"];
    assert Filter(["", "a"], NotEmpty) == Filter(["a"], NotEmpty);
  }

  /** Stripping `" "` gives "" and stripping `"a"` gives `"a"`. */
  lemma StripSpaceAndLetter()
    ensures MapSeq([" ", "a"], Strip) == ["", "a"]
  {
    assert IsSpace(' ') && !IsSpace('a');
    assert Strip(" ") == "";
    assert Strip("a") == "a";
  }

  /** The tag strings of the two cleaned lists and their tag counts. */
  lemma ExampleTagStrings()
    ensures TagString(["", "a"]) == "|a" && CountTags("|a") == 2
    ensures TagString(["a"]) == "a" && CountTags("a") == 1
  {
    ExampleDedups();
    assert Join(["", "a"], TagSep) == "|a";
    assert multiset("|a")[TagSep] == 1 by {
      assert "|a" == [TagSep] + "a";
    }
    assert multiset("a")[TagSep] == 0;
  }

  /** Neither example list holds a repeated tag, so `set` keeps both as they are. */
  lemma ExampleDedups()
    ensures Dedup(["", "a"]) == ["", "a"] && Dedup(["a"]) == ["a"]
  {
    assert ["", "a"][..1] == [""];
    assert ["a"][..0] == [];
    assert Dedup([""]) == [""];
  }

  /** Two rows tagged `"x | y"` and `"y | x"`: split at `|`, each tag keeps the space next to the bar. */
  const PaddedTable: seq<Node> :=
    [Node(0, 0, [], "x | y", Some(["x ", " y"])), Node(1, 0, [], "y | x", Some(["y ", " x"]))]

  /**
   * In `PaddedTable` every unstripped tag occurs once, so the source's cleanup,
   * counting before it strips, empties both rows, and so does the fix of the
   * strip order alone, although `"x"` and `"y"` each occur in both rows; the
   * cleanup that strips first keeps them.
   */
  lemma PaddedTagsDropped()
    ensures Split("x | y", TagSep) == ["x ", " y"] && Split("y | x", TagSep) == ["y ", " x"]
    ensures SingletonFreeListsAsWritten(PaddedTable)[0] == [] && SingletonFreeListsAsWritten(PaddedTable)[1] == []
    ensures SingletonFreeLists(PaddedTable)[0] == [] && SingletonFreeLists(PaddedTable)[1] == []
    ensures StrippedSingletonFreeLists(PaddedTable)[0] == ["x", "y"]
    ensures StrippedSingletonFreeLists(PaddedTable)[1] == ["y", "x"]
  {
    PaddedSplits();
    PaddedCountedFirst();
    PaddedStrippedFirst();
  }

  /** Counted before the strip, no tag of `PaddedTable` is active, so both rows end empty. */
  lemma PaddedCountedFirst()
    ensures SingletonFreeListsAsWritten(PaddedTable)[0] == [] && SingletonFreeListsAsWritten(PaddedTable)[1] == []
    ensures SingletonFreeLists(PaddedTable)[0] == [] && SingletonFreeLists(PaddedTable)[1] == []
  {
    PaddedLists();
    FourSingletonsInactive(TagLists(PaddedTable), "x ", " y", "y ", " x");
    RowWithoutActiveTags(PaddedTable, 0);
    RowWithoutActiveTags(PaddedTable, 1);
  }

  /** In two rows holding four different tags, one each, no tag is active. */
  lemma FourSingletonsInactive(lists: seq<seq<string>>, a: string, b: string, c: string, d: string)
    requires lists == [[a, b], [c, d]]
    requires a != b && a != c && a != d && b != c && b != d && c != d
    ensures forall t :: t in lists[0] || t in lists[1] ==> t !in ActiveTags(lists)
  {
    SingletonInactive(lists, 0, a);
    SingletonInactive(lists, 0, b);
    SingletonInactive(lists, 1, c);
    SingletonInactive(lists, 1, d);
  }

  /** A row none of whose tags is active ends empty under both count-first cleanups. */
  lemma RowWithoutActiveTags(df: seq<Node>, i: nat)
    requires i < |df|
    requires forall t :: t in TagLists(df)[i] ==> t !in ActiveTags(TagLists(df))
    ensures SingletonFreeListsAsWritten(df)[i] == [] && SingletonFreeLists(df)[i] == []
  {
    var lists := TagLists(df);
    KeepNoneActive(lists[i], ActiveTags(lists));
    CleanedRows(df, i);
  }

  /** Stripped first, `"x"` and `"y"` each occur in both rows of `PaddedTable` and are kept. */
  lemma PaddedStrippedFirst()
    ensures StrippedSingletonFreeLists(PaddedTable)[0] == ["x", "y"]
    ensures StrippedSingletonFreeLists(PaddedTable)[1] == ["y", "x"]
  {
    PaddedStrippedLists();
    SharedPairActive(StrippedLists(TagLists(PaddedTable)), "x", "y");
    RowOfActiveTags(PaddedTable, 0);
    RowOfActiveTags(PaddedTable, 1);
  }

  /** The stripped tag lists of `PaddedTable`. */
  lemma PaddedStrippedLists()
    ensures StrippedLists(TagLists(PaddedTable)) == [["x", "y"], ["y", "x"]]
  {
    PaddedLists();
    StrippedPair(["x ", " y"], ["y ", " x"]);
    PaddedStrips();
  }

  /** Stripping a two-row table strips each row. */
  lemma StrippedPair(a: seq<string>, b: seq<string>)
    ensures StrippedLists([a, b]) == [StripNonEmpty(a), StripNonEmpty(b)]
  {
  }

  /** Two rows holding the same two tags: every tag of either row is active. */
  lemma SharedPairActive(lists: seq<seq<string>>, x: string, y: string)
    requires lists == [[x, y], [y, x]]
    ensures forall i, t :: 0 <= i < |lists| && t in lists[i] ==> t in ActiveTags(lists)
  {
    ActiveInTwoRows(lists, 0, 1, x);
    ActiveInTwoRows(lists, 0, 1, y);
  }

  /** A row whose stripped tags are all active is kept whole by the strip-first cleanup. */
  lemma RowOfActiveTags(df: seq<Node>, i: nat)
    requires i < |df|
    requires forall t :: t in StrippedLists(TagLists(df))[i] ==> t in ActiveTags(StrippedLists(TagLists(df)))
    ensures StrippedSingletonFreeLists(df)[i] == StrippedLists(TagLists(df))[i]
  {
    var stripped := StrippedLists(TagLists(df));
    var active := ActiveTags(stripped);
    FilterKeepsAll(stripped[i], (k: string) => k in active);
    CleanedRows(df, i);
  }

  /** The tag lists of `PaddedTable`, whose four tags are all different. */
  lemma PaddedLists()
    ensures TagLists(PaddedTable) == [["x ", " y"], ["y ", " x"]]
    ensures "x " != " y" && "x " != "y " && "x " != " x" && " y" != "y " && " y" != " x" && "y " != " x"
  {
    assert "x "[0] != " y"[0] && "x "[0] != "y "[0] && "x "[0] != " x"[0];
    assert " y"[0] != "y "[0] && " y"[1] != " x"[1] && "y "[0] != " x"[0];
  }

  /** A list with no active tag keeps nothing. */
  lemma KeepNoneActive(tags: seq<string>, active: set<string>)
    requires forall t :: t in tags ==> t !in active
    ensures KeepActive(tags, active) == []
  {
    var kept := KeepActive(tags, active);
    if kept != [] {
      assert false;
    }
  }

  /** The split of the two padded tag strings. */
  lemma PaddedSplits()
    ensures Split("x | y", TagSep) == ["x ", " y"] && Split("y | x", TagSep) == ["y ", " x"]
  {
    assert "x | y" == "x " + [TagSep] + " y" && "y | x" == "y " + [TagSep] + " x";
    SplitAtFirstSep("x ", " y", TagSep);
    SplitAtFirstSep("y ", " x", TagSep);
    SplitWithoutSep(" y", TagSep);
    SplitWithoutSep(" x", TagSep);
  }

  /** A letter with one space after it or before it strips to the letter. */
  lemma StripPadding(c: char)
    requires !IsSpace(c)
    ensures Strip([c, ' ']) == [c] && Strip([' ', c]) == [c]
  {
    assert IsSpace(' ');
    assert FirstNonSpace([c, ' '], 0) == 0;
    assert EndOfNonSpace([c, ' '], 0, 2) == 1;
    assert FirstNonSpace([' ', c], 0) == 1;
    assert EndOfNonSpace([' ', c], 1, 2) == 2;
  }

  /** Stripping the two padded rows gives `["x", "y"]` and `["y", "x"]`. */
  lemma PaddedStrips()
    ensures StripNonEmpty(["x ", " y"]) == ["x", "y"] && StripNonEmpty(["y ", " x"]) == ["y", "x"]
  {
    assert !IsSpace('x') && !IsSpace('y');
    StripPadding('x');
    StripPadding('y');
    assert "x " == ['x', ' '] && " x" == [' ', 'x'] && "y " == ['y', ' '] && " y" == [' ', 'y'];
    assert MapSeq(["x ", " y"], Strip) == ["x", "y"];
    assert MapSeq(["y ", " x"], Strip) == ["y", "x"];
    FilterKeepsAll(["x", "y"], NotEmpty);
    FilterKeepsAll(["y", "x"], NotEmpty);
  }

  /**
   * The value logic of `decorate_network`, column by column: cluster sizes,
   * the short theme label, the out-degree from the link table and, when asked,
   * the removal of tags that occur only once, stripped before they are counted.
   */
  function DecorateNetwork(df: seq<Node>, links: seq<Link>, removeSingletons: bool): (out: seq<DecoratedNode>)
    ensures |out| == |df|
    ensures forall i :: 0 <= i < |df| ==> out[i].id == df[i].id
    ensures forall i :: 0 <= i < |df| ==>
      out[i].clusterCount == |IndicesOf(Clusters(df), df[i].cluster)|
    ensures forall i :: 0 <= i < |df| ==> out[i].keywordTheme == KeywordTheme(df[i].topTags)
    ensures forall i :: 0 <= i < |df| ==> out[i].nNeighbors == NeighborColumn(df, links)[i]
    ensures !removeSingletons ==> forall i :: 0 <= i < |df| ==>
      out[i].tags == df[i].tags && out[i].tagList == df[i].tagList && out[i].nTags == None
    ensures removeSingletons ==> forall i :: 0 <= i < |df| ==>
      && out[i].tagList == Some(StrippedSingletonFreeLists(df)[i])
      && out[i].tags == TagString(StrippedSingletonFreeLists(df)[i])
      && out[i].nTags == Some(CountTags(out[i].tags))
  {
    var counts := ClusterCounts(Clusters(df));
    var themes := seq(|df|, i requires 0 <= i < |df| => KeywordTheme(df[i].topTags));
    var neighbors := NeighborColumn(df, links);
    Assemble(df, counts, themes, neighbors, if removeSingletons then Some(StrippedSingletonFreeLists(df)) else None)
  }

  /** The decorated rows from their derived columns; `cleaned` is None when singletons are kept. */
  function Assemble(df: seq<Node>, counts: seq<nat>, themes: seq<string>, neighbors: seq<Option<nat>>,
                    cleaned: Option<seq<seq<string>>>): (out: seq<DecoratedNode>)
    requires |counts| == |themes| == |neighbors| == |df|
    requires cleaned.Some? ==> |cleaned.value| == |df|
    ensures |out| == |df|
    ensures forall i :: 0 <= i < |df| ==>
      && out[i].id == df[i].id && out[i].clusterCount == counts[i]
      && out[i].keywordTheme == themes[i] && out[i].nNeighbors == neighbors[i]
    ensures cleaned.None? ==> forall i :: 0 <= i < |df| ==>
      out[i].tags == df[i].tags && out[i].tagList == df[i].tagList && out[i].nTags == None
    ensures cleaned.Some? ==> forall i :: 0 <= i < |df| ==>
      && out[i].tagList == Some(cleaned.value[i])
      && out[i].tags == TagString(cleaned.value[i])
      && out[i].nTags == Some(CountTags(out[i].tags))
  {
    seq(|df|, i requires 0 <= i < |df| =>
      match cleaned
      case None =>
        DecoratedNode(df[i].id, counts[i], themes[i], neighbors[i], df[i].tags, df[i].tagList, None)
      case Some(lists) =>
        var s := TagString(lists[i]);
        DecoratedNode(df[i].id, counts[i], themes[i], neighbors[i], s, Some(lists[i]), Some(CountTags(s))))
  }
}

=== FILE: textops.dfy ===
/**
 * The Python string operations the core relies on: `str.split(sep)`,
 * `sep.join(parts)`, `str.strip()` and the substring test `sub in s`.
 */
module TextOps {

  /**
   * `s.split(sep)` for a one-character separator: the pieces between separators,
   * empty pieces included, so that `"".split(sep) == [""]`.
   */
  function Split(s: string, sep: char): (r: seq<string>)
    ensures |r| >= 1
    ensures forall i :: 0 <= i < |r| ==> sep !in r[i]
  {
    if s == [] then [""]
    else
      var rest := Split(s[1..], sep);
      if s[0] == sep then [""] + rest
      else [[s[0]] + rest[0]] + rest[1..]
  }

  /** `sep.join(parts)`: the parts with one separator between each two neighbours. */
  function Join(parts: seq<string>, sep: char): string
  {
    if |parts| == 0 then ""
    else if |parts| == 1 then parts[0]
    else parts[0] + [sep] + Join(parts[1..], sep)
  }

  /** A join of separator-free parts holds one separator fewer than it has parts. */
  lemma {:induction false} JoinSepCount(parts: seq<string>, sep: char)
    requires |parts| >= 1
    requires forall i :: 0 <= i < |parts| ==> sep !in parts[i]
    ensures multiset(Join(parts, sep))[sep] == |parts| - 1
  {
    if |parts| > 1 {
      JoinSepCount(parts[1..], sep);
      assert multiset(parts[0])[sep] == 0;
      assert multiset(parts[0] + [sep] + Join(parts[1..], sep)) ==
        multiset(parts[0]) + multiset([sep]) + multiset(Join(parts[1..], sep));
    } else {
      assert multiset(parts[0])[sep] == 0;
    }
  }

  /** Rejoining the pieces of a split gives back the original string. */
  lemma {:induction false} JoinSplit(s: string, sep: char)
    ensures Join(Split(s, sep), sep) == s
  {
    if s != [] {
      JoinSplit(s[1..], sep);
      var rest := Split(s[1..], sep);
      assert s == [s[0]] + s[1..];
      if s[0] == sep {
        assert ([""] + rest)[1..] == rest;
      } else if |rest| > 1 {
        var r := [[s[0]] + rest[0]] + rest[1..];
        assert r[1..] == rest[1..];
        assert Join(rest, sep) == rest[0] + [sep] + Join(rest[1..], sep);
      }
    }
  }

  /** A string without the separator splits into itself. */
  lemma {:induction false} SplitWithoutSep(x: string, sep: char)
    requires sep !in x
    ensures Split(x, sep) == [x]
  {
    if x != [] {
      SplitWithoutSep(x[1..], sep);
      assert x == [x[0]] + x[1..];
    }
  }

  /** Splitting `x + sep + rest`, where `x` holds no separator, peels off `x`. */
  lemma {:induction false} SplitAtFirstSep(x: string, rest: string, sep: char)
    requires sep !in x
    ensures Split(x + [sep] + rest, sep) == [x] + Split(rest, sep)
  {
    var s := x + [sep] + rest;
    if x == [] {
      assert s[1..] == rest;
    } else {
      SplitAtFirstSep(x[1..], rest, sep);
      assert s[1..] == x[1..] + [sep] + rest;
      assert x == [x[0]] + x[1..];
    }
  }

  /** Splitting a join gives back the parts, provided no part holds the separator. */
  lemma {:induction false} SplitJoin(parts: seq<string>, sep: char)
    requires |parts| >= 1
    requires forall i :: 0 <= i < |parts| ==> sep !in parts[i]
    ensures Split(Join(parts, sep), sep) == parts
  {
    if |parts| == 1 {
      SplitWithoutSep(parts[0], sep);
    } else {
      SplitJoin(parts[1..], sep);
      SplitAtFirstSep(parts[0], Join(parts[1..], sep), sep);
      assert parts == [parts[0]] + parts[1..];
    }
  }

  /** `len(s.split(sep))` is one more than the number of separators in `s`. */
  lemma {:induction false} SplitCount(s: string, sep: char)
    ensures |Split(s, sep)| == multiset(s)[sep] + 1
  {
    if s != [] {
      SplitCount(s[1..], sep);
      assert s == [s[0]] + s[1..];
    }
  }

  /** `sub` occurs in `s` starting at position `i`. */
  predicate OccursAt(s: string, sub: string, i: int)
  {
    0 <= i <= |s| - |sub| && s[i..i + |sub|] == sub
  }

  /** `sub in s` for strings: `sub` occurs at some position of `s`. */
  predicate Contains(s: string, sub: string)
    ensures Contains(s, sub) <==> exists i :: OccursAt(s, sub, i)
    decreases |s|
  {
    assert sub <= s <==> OccursAt(s, sub, 0);
    assert forall i :: OccursAt(s, sub, i) && i > 0 ==> OccursAt(s[1..], sub, i - 1) by {
      forall i | OccursAt(s, sub, i) && i > 0 ensures OccursAt(s[1..], sub, i - 1) {
        assert s[1..][i - 1..i - 1 + |sub|] == s[i..i + |sub|];
      }
    }
    assert forall i :: |s| > 0 && OccursAt(s[1..], sub, i) ==> OccursAt(s, sub, i + 1) by {
      forall i | |s| > 0 && OccursAt(s[1..], sub, i) ensures OccursAt(s, sub, i + 1) {
        assert s[1..][i..i + |sub|] == s[i + 1..i + 1 + |sub|];
      }
    }
    sub <= s || (|s| > 0 && Contains(s[1..], sub))
  }

  /** `c.isspace()` for a single code point, as Python defines whitespace. */
  predicate IsSpace(c: char)
  {
    var n := c as int;
    (0x09 <= n <= 0x0d) || (0x1c <= n <= 0x20) || n == 0x85 || n == 0xa0 || n == 0x1680
    || (0x2000 <= n <= 0x200a) || n == 0x2028 || n == 0x2029 || n == 0x202f
    || n == 0x205f || n == 0x3000
  }

  /** Neither end of `s` is whitespace. */
  predicate IsStripped(s: string)
  {
    s == [] || (!IsSpace(s[0]) && !IsSpace(s[|s| - 1]))
  }

  /** The index of the first non-whitespace character at or after `from`, or `|s|`: where `s.lstrip()` starts. */
  function FirstNonSpace(s: string, from: nat): (n: nat)
    requires from <= |s|
    ensures from <= n <= |s|
    ensures forall k :: from <= k < n ==> IsSpace(s[k])
    ensures n == |s| || !IsSpace(s[n])
    decreases |s| - from
  {
    if from == |s| || !IsSpace(s[from]) then from else FirstNonSpace(s, from + 1)
  }

  /** The index just after the last non-whitespace character of `s[lo..hi]`, or `lo`: where `s.rstrip()` ends. */
  function EndOfNonSpace(s: string, lo: nat, hi: nat): (j: nat)
    requires lo <= hi <= |s|
    ensures lo <= j <= hi
    ensures forall k :: j <= k < hi ==> IsSpace(s[k])
    ensures j == lo || !IsSpace(s[j - 1])
    decreases hi
  {
    if hi == lo || !IsSpace(s[hi - 1]) then hi else EndOfNonSpace(s, lo, hi - 1)
  }

  /** `r` is the slice `s[i..j]`, and only whitespace lies before `i` and from `j` on. */
  predicate IsTrimmedSlice(s: string, r: string, i: int, j: int)
  {
    && 0 <= i <= j <= |s| && r == s[i..j]
    && (forall k :: 0 <= k < i ==> IsSpace(s[k]))
    && (forall k :: j <= k < |s| ==> IsSpace(s[k]))
  }

  /**
   * `s.strip()`: the slice of `s` left after removing its leading and its
   * trailing whitespace; it is empty exactly when `s` is all whitespace.
   */
  function Strip(s: string): (r: string)
    ensures exists i, j :: IsTrimmedSlice(s, r, i, j)
    ensures IsStripped(r)
    ensures forall c :: c in r ==> c in s
    ensures r == [] <==> forall i :: 0 <= i < |s| ==> IsSpace(s[i])
    ensures IsStripped(s) ==> r == s
  {
    var i := FirstNonSpace(s, 0);
    var j := EndOfNonSpace(s, i, |s|);
    assert IsTrimmedSlice(s, s[i..j], i, j);
    s[i..j]
  }
}

=== FILE: wrappers.dfy ===
/** Optional values and the outcomes of operations that can raise, used throughout the model. */
module Wrappers {

  /** A value that may be missing (a pandas NaN, a dictionary key that is absent). */
  datatype Option<+T> = None | Some(value: T)

  /** The outcome of an operation that can raise. */
  datatype Result<+T, +E> = Success(value: T) | Failure(error: E)
}
